=== FILE: README.md ===
# telebot in Dafny

A model of the in-process logic of `telebot`, a small framework for
Telegram bots, and of the two archived bots built on it.

- **Chat and Data.** `Chat` is one chat's started flag and append-only message
  cache. `Data` is the per-process store of chats: it creates chats lazily,
  its snapshot file is `<bot name>.bot-data`, `load` merges a snapshot over
  memory, and `clear` rebinds two keys to the class-level default dicts. Those
  dicts are shared through a shallow copy, so `clear` brings back whatever was
  written into them since.
- **Filters.** The AND-fold of a handler's filter tuple, and the custom
  `Mention` filter with Python slice semantics.
- **Proxy.** Named boolean gates attached to a callback. The callback runs only
  when every gate holds. A gate can be inverted or cancelled. The built-in
  gates are `lock_start` and `lock_group`.
- **Layer.** `Layer.stack`, the left-to-right composition of wrappers around a
  callback. Also the `layer` list that decorating builds, and the `with_info`
  layer.
- **Bot.** Covers:
  - the `with_info`, `cache` and `lock_start` handler wrappers;
  - the marks the `command`, `message` and `set_error` decorators leave;
  - what `MetaBot.get_handlers` harvests from a class body;
  - the three registration steps;
  - `load` that tolerates a missing file, `get_answer` and `bot_cache`.
- **Game.** The `start`/`finish` guards around a single started flag, the
  roster keyed by user id, `__contains__`, the `with` block, scores and the
  winner.
- **GuguGame and GuguBot.** The photo game has three deques: the masters,
  the objects, and a first-in-first-out photo line. The coordinator creates
  one game per group, turns join-button presses into pending invitations,
  redeems them with `/start`, and drives the review of photos.
- **VilaBot.** Its `/start` starts a chat only once, and every other handler is
  gated on the chat being started.

Python's behaviour is written out wherever it matters:
- A call that may raise returns an `Outcome`.
- A call that may change state and then raise returns a `Step`, which carries
  the state reached along with the outcome.
- A `dict` is an insertion-ordered sequence of pairs with distinct keys.
- A deque is a sequence whose index 0 is its left end.
- Callbacks and gate predicates are Dafny functions. A gate predicate returns a
  `Step`, because `lock_start` may create a chat or raise. The meaning of a
  built-in library filter is a parameter.

The model follows the code as written, in particular where it departs from
what the names suggest:
- **`start` and `finish` swallow errors.** Every exception of a `start` or
  `finish` body is swallowed and the flag is rolled back, so `finish` never
  leaves a terminal state.
- **`__contains__` is always false.** `Game.__contains__` compares a user id
  with `Player` objects, so `/sair` never removes anybody.
- **No error handler is ever registered.** The metaclass installs
  `error_handler`, but `add_error_handler` reads the empty class list
  `error_handlers`.
- **`clear` does not empty the chats of a store that was never loaded.**
- **No gugu game is ever started.** `/jogar` and `/iniciar` call the game's
  `start` without its `info` argument, and the guard swallows the resulting
  `TypeError`. As a result every later `objeto` button press raises.
- **`ask_photo` always raises `AttributeError` after losing the photo.** The
  `master` attribute is never assigned, so the error comes only after the
  photo has been popped.

## Model

| member | source | states |
|---|---|---|
| Telegram.GetInfoPassesThrough | telebot/bot.py:154-155 | Given a single argument, `get_info` returns it unchanged. So building the info twice gives the info built once, which is why nested wrappers that each call `get_info` compose. |
| Telegram.ExtractInfo | telebot/bot.py:157-171 | The info carries the chat id and username of the update's chat, the update's message with its id and text, and the context's error. It also carries the chat type, title, user id and full name that the game bots read. |
| ChatState.NewChat | telebot/chat/chat.py:3-7 | A new chat has the given id, is not started and has an empty cache. |
| ChatState.StartIdempotent | telebot/chat/chat.py:9-10 | After `start` the chat is started whatever it was before. A second `start` changes nothing. Neither changes the id or the cache. |
| ChatState.SaveAppendsOne | telebot/chat/chat.py:12-17 | After `save`, the cache read back is the old cache plus exactly the new message. Its length grows by one and the earlier messages are an unchanged prefix. The id and the started flag are untouched. |
| ChatState.SaveAllAppends | telebot/chat/chat.py:12-13 | Saving messages one at a time leaves the cache equal to the old cache followed by those messages, in the order saved. |
| Store.Chats | telebot/data/data.py:41-43 | The `chats` accessor succeeds exactly when the `chats` key is present and bound to a chat table, and then returns the table that key stands for. It may be bound to a shared default dict or to a dict of its own. |
| Store.Common | telebot/data/data.py:45-47 | The same for the `common` accessor and the common bucket. |
| Store.GetChat | telebot/data/data.py:23-28 | Afterwards the returned chat is the one the table holds under the id. For a known id the store is unchanged. For an unknown id a fresh chat is appended under that id and every other id keeps its chat. The other memory keys and well-formedness are preserved. An unreadable table propagates its error with nothing changed. |
| Store.GetChatTwice | telebot/data/data.py:23-28 | A second `get_chat` for the same id returns the same chat and changes nothing. |
| Store.FileNameInjective | telebot/data/data.py:30-36 | `load` and `save` use the same file name. Two different bot names never share a snapshot file. |
| Store.Save | telebot/data/data.py:34-36 | The bot's file afterwards holds exactly the whole memory. No other file changes, and only that file name is added. |
| Store.Load | telebot/data/data.py:30-32 | A missing file raises `FileNotFoundError` with memory unchanged. Otherwise the memory keys become the union of both key sets. Each key of the snapshot holds the snapshot's value. Each key absent from it keeps its binding and its value, and the class-level defaults are unchanged. |
| Store.SaveLoadRoundTrip | telebot/data/data.py:30-36 | Saving a well-formed store and loading that file into a fresh store reproduces the saved memory exactly. |
| Store.Clear | telebot/data/data.py:38-39 | Only `chats` and `common` are rebound, to the class-level default dicts. Every other key keeps its binding, and the defaults themselves are not emptied. |
| Store.ClearKeepsSharedChats | telebot/data/data.py:10-15 | In a store whose `chats` key is still the shared default, `clear` leaves the chat table exactly as it was. |
| Store.ClearAfterGetChat | telebot/data/data.py:38-39 | In any store never loaded, a fresh one among them, a chat that `get_chat` created or found is still there after `clear`. The chat table is the same before and after `clear`. |
| Filters.AndFold | telebot/bot.py:135 | Folding a tuple raises `TypeError` exactly when the tuple is empty. A one-filter tuple gives that filter unchanged. |
| Filters.FoldAndMeansAll | telebot/bot.py:135 | The left fold of `&` from an initial filter accepts a message exactly when the initial filter and every filter of the rest accept it. |
| Filters.AndFoldMeansAll | telebot/bot.py:135 | The combined filter of a non-empty tuple accepts a message exactly when every filter of the tuple does. |
| Filters.Slice | telebot/filters/filters.py:12-14 | Python's `text[i:j]` is always a contiguous piece of the text. It equals `text[i..j]` when both bounds lie within the text, and runs to the end when `j` is past it. It is empty when `i` is at or past the end, when `0 <= j <= i`, or when `j` lies before the start. |
| Filters.SliceBound | telebot/filters/filters.py:14 | A bound in `0..n` is kept. A bound past the end becomes `n`. A negative bound counts from the end, `x + n`, and one before the start becomes 0. |
| Filters.SliceClamps | telebot/filters/filters.py:12-14 | The slice with a negative bound equals the slice with that bound counted from the end. Either bound before the start acts as 0, and a bound past the end acts as the length. |
| Filters.MentionFilter | telebot/filters/filters.py:9-17 | The filter accepts a message exactly when some entity is a `mention` whose sliced span is `@username`. |
| Filters.AnyMention | telebot/filters/filters.py:10-17 | The scan over the entities with its `for ... else` returns true exactly when some entity in the list is a mention of the user. |
| Filters.OnlyMentionsMatch | telebot/filters/filters.py:10-17 | A message none of whose entities is a mention never matches, and in particular a message without entities never matches. |
| Filters.MentionInRange | telebot/filters/filters.py:11-15 | For a single mention entity whose span lies inside the text, the filter matches exactly when that span spells `@username`. |
| Proxy.Invert | telebot/proxy/proxy.py:51-55 | An inverted gate keeps the name and leaves the bot as the original predicate leaves it. It raises exactly when the original does, and answers `True` exactly when the original answers `False`. The original is a value and is unchanged. |
| Proxy.Cancel | telebot/proxy/proxy.py:57-61 | A cancelled gate keeps the name. For every bot and info it answers `True`, without changing the bot and without raising. |
| Proxy.InvertInvolution | telebot/proxy/proxy.py:51-69 | Inverting twice gives the original predicate back, under the same name. Cancelling an inverted gate is the same as cancelling the gate. |
| Proxy.AllPass | telebot/proxy/proxy.py:43 | Over no entries, `all(...)` is true and the bot is unchanged. A first predicate that raises or answers `False` ends the scan with its own bot state and its exception or `False`. When no predicate changes the bot or raises, the result is true exactly when every entry's predicate answers `True`. |
| Proxy.Allow | telebot/proxy/proxy.py:41-43 | With no gates `allow` holds vacuously and the bot is unchanged. When no predicate changes the bot or raises, it holds exactly when the predicate filed under every name of the table answers `True`. |
| Proxy.PureTableAsEntries | telebot/proxy/proxy.py:41-43 | Read in insertion order, a table whose predicates neither change the bot nor raise is a list of such predicates. All of them answer `True` exactly when the predicate under every name does. |
| Proxy.Attach | telebot/proxy/proxy.py:71-77 | Attaching a gate files its predicate under its name, creating the table on first use and replacing a gate of the same name. Every other name keeps its predicate (or stays absent), and the callback itself is unchanged. |
| Proxy.ApplyCall | telebot/proxy/proxy.py:30-39 | A callback without a `proxy` table raises `AttributeError`. An exception of a gate propagates, with the bot the gates left. When `allow` answers `True`, the original runs on the bot the gates left and its result and state are handed on. The result is `None` exactly when `allow` answers `False`, and then the bot is the one the gates left. |
| Proxy.AllowAfterSet | telebot/proxy/proxy.py:41-43 | Among predicates that neither change the bot nor raise, filing one under a name makes `allow` hold exactly when the rest of the table allows and the new predicate answers `True`. |
| Proxy.CancelledGateNeverBlocks | telebot/proxy/proxy.py:57-61 | Among predicates that neither change the bot nor raise, a cancelled gate lets the callback run exactly when the other gates hold, whatever the original predicate says. |
| Proxy.InvertedGateAllows | telebot/proxy/proxy.py:51-55 | Among predicates that neither change the bot nor raise, an inverted gate lets the callback run exactly when the other gates hold and the original predicate does not. |
| Proxy.LockStart | telebot/proxy/proxy.py:81-85 | `lock_start` is filed under the name `start`. |
| Proxy.LockStartReadsChat | telebot/proxy/proxy.py:81-85 | The `lock_start` predicate answers whether the store holds a started chat under the info's chat id. A store that knows the chat is left as it was. For an unseen id, a fresh chat is filed, as `get_chat` does. An unreadable chat table raises its error. |
| Proxy.LockGroup | telebot/proxy/proxy.py:93-96 | `lock_group` is filed under the name `group`. |
| Proxy.LockGroupOnlyGroups | telebot/proxy/proxy.py:93-96 | For an info that carries the chat type, `lock_group` answers `True` exactly for `group` and `supergroup` chats, whatever the bot's state. It never changes the bot. |
| Layer.StackConcat | telebot/layer/layer.py:30-36 | Stacking no layers returns the callback unchanged. Stacking `a + b` equals stacking `b` on the result of stacking `a`. |
| Layer.StackIsNest | telebot/layer/layer.py:30-36 | `stack(cb, [l1, ..., ln])` equals `ln(...l1(cb))`: the first layer is innermost and the last outermost. |
| Layer.Attach | telebot/layer/layer.py:41-48 | Attaching a layer appends it to the end of the callback's layer list, creating the list on first use. Earlier entries are kept and the callback is returned unwrapped. |
| Layer.Apply | telebot/layer/layer.py:26-28 | `apply` wraps the callback in its own layer list, first layer innermost. A callback without a list raises `AttributeError`. |
| Layer.AttachAllAppends | telebot/layer/layer.py:41-48 | Attaching several layers in turn appends all of them, in order, to the existing list. |
| Layer.DecoratedThenApplied | telebot/layer/layer.py:26-48 | Decorate a plain callback with layers and apply it: the result wraps the callback in exactly those layers, the first-attached innermost. |
| Layer.WithInfoNests | telebot/layer/layer.py:52-59 | The `with_info` layer calls the callback with the single info argument. Nesting it twice behaves like once. |
| Bot.StartChat | telebot/bot.py:184-187 | Afterwards the chat is started, its cache is kept (or empty for a new chat), and every other chat and well-formedness are unchanged. The memory keeps its keys, and every key other than `chats` keeps its value. |
| Bot.StoreAfterCaching | telebot/bot.py:204-207 | The store `cache` hands on has the message appended once to its chat's cache, creating the chat if new. The chat's id and started flag are kept, and every other chat and memory key are unchanged. |
| Bot.CacheCall | telebot/bot.py:200-209 | The cached callback is the original callback called with the original arguments, on the store in which the message was cached once. An unreadable chat table propagates its error. |
| Bot.LockStartCall | telebot/bot.py:211-222 | The locked callback runs the original exactly when the chat is started. Otherwise it returns `None`, leaving only the chat `get_chat` may have created. |
| Bot.LockStartMatchesGate | telebot/bot.py:211-222 | A handler wrapped by `Bot.lock_start` and the same handler behind the `lock_start` gate of the proxy module agree on every input. They leave the same store and give the same reply, `None` when the chat is not started, or the same exception. |
| Bot.Command | telebot/bot.py:224-234 | `command` sets the command name and `kw`, keeping the message and error marks. The harvest of an attribute so marked lists its command name and a command entry pairing that name with the attribute and `kw`. |
| Bot.OnMessage | telebot/bot.py:236-246 | `message` sets the filter tuple and `kw`, keeping the command and error marks. The harvest of an attribute so marked appends a message entry with exactly those filters, the attribute and `kw`. |
| Bot.SetError | telebot/bot.py:248-252 | `set_error` sets the error mark and keeps every other mark. The harvest of an attribute so marked names it as the error handler. |
| Bot.GetHandlers | telebot/bot.py:19-39 | `commands` and `command_handlers` have the same length, and each entry of `command_handlers` carries the command name listed at the same place in `commands`. |
| Bot.ErrorHandlerIsLastMarked | telebot/bot.py:24-38 | `error_handler` is `None` exactly when no attribute is error-marked. Otherwise it names an error-marked attribute with no error-marked attribute after it. |
| Bot.GetHandlersConcat | telebot/bot.py:25-37 | Harvesting a class body in two parts concatenates the command, command-handler and message-handler lists, and the later error handler wins. So every table keeps declaration order. |
| Bot.AddCommandHandlers | telebot/bot.py:119-130 | Every command entry is registered, in order. The class `commands` list ends with each command's name appended after the names it already held. |
| Bot.CommandsListedTwice | telebot/bot.py:119-130 | Because the metaclass already filled `commands`, after registration it lists every command twice. |
| Bot.AddMessageHandlers | telebot/bot.py:132-143 | Registration succeeds exactly when no filter tuple is empty, and an empty tuple raises `TypeError`. Each registered handler pairs the AND-fold of its tuple with its attribute, in order. Handlers registered before the failure stay registered, and the entry that failed is the empty one. |
| Bot.AddErrorHandler | telebot/bot.py:145-149 | At most one handler is registered: the first of the list, and only when the list is non-empty. |
| Bot.Load | telebot/bot.py:58-62 | The snapshot is the one filed under the class name, which is what `bot_name` returns. A missing snapshot file leaves memory as it was instead of raising. An existing one brings every key of the snapshot in, and every other key keeps its binding and value. |
| Bot.GetAnswer | telebot/bot.py:173-177 | The default answer quotes the text back, embedded whole at a fixed position. |
| Bot.Flatten | telebot/bot.py:258-260 | The concatenation holds exactly the messages of the given chats' caches, and begins with the first chat's cache. |
| Bot.FlattenConcat | telebot/bot.py:258-260 | `sum(..., [])` over two runs of chats is the sum over the first followed by the sum over the second. One chat contributes exactly its cache. |
| Bot.BotCache | telebot/bot.py:258-260 | `bot_cache` is readable exactly when the chat table is. It holds a message exactly when some stored chat's cache holds it, and it is the sum over the chats in insertion order. |
| Bot.BotCacheOrder | telebot/bot.py:258-260 | The chat at each position of the table contributes its whole cache. That cache comes after every message of the earlier chats and before every message of the later ones. |
| Bot.CachedMessageInBotCache | telebot/bot.py:200-209 | A message that went through `cache` shows up in `bot_cache`. |
| Game.NewPlayer | telebot/game/game.py:9-14 | A new player has the given ids and name and a score of 0. |
| Game.PlayerText | telebot/game/game.py:16-17 | `str(player)` is the full name, and fails with `TypeError` exactly when the player has none. |
| Game.NewGame | telebot/game/game.py:25-30 | A new game has its chat, no players, and is not started. |
| Game.Start | telebot/game/game.py:32-44 | On a started game: raises `GameError('Game already started.')` and changes nothing. Otherwise the body runs with the flag already set. A returning body's value is handed back with the flag as the body left it. A raising body has its exception swallowed: `None` is returned and the flag is cleared, and the body's other changes stay. |
| Game.Finish | telebot/game/game.py:46-58 | The mirror image: on a game that is not started it raises `GameError('Game already finished.')`. Otherwise the body runs with the flag cleared, and a raising body is swallowed with the flag set again. |
| Game.StartTwice | telebot/game/game.py:36-43 | After a successful start, a second start raises `GameError` and changes nothing, whatever either body does. |
| Game.FinishBeforeStart | telebot/game/game.py:49-57 | Finishing a fresh game raises `GameError` and changes nothing. |
| Game.StartFinishRestartable | telebot/game/game.py:32-58 | A start whose body raises, and a finish whose body returns, both leave a game that can be started again. There is no terminal state. |
| Game.Enter | telebot/game/game.py:72-74 | Entering a `with` block sets the flag and changes nothing else. |
| Game.Exit | telebot/game/game.py:76-77 | Leaving it clears the flag and changes nothing else. |
| Game.WithBlockRestores | telebot/game/game.py:72-77 | Inside a `with` block the start guard refuses. After the block, a start is allowed again. |
| Game.AddPlayer | telebot/game/game.py:60-61 | The player is filed under its user id, replacing one with the same id. Every other id keeps its player. |
| Game.RmvPlayer | telebot/game/game.py:63-64 | Raises `KeyError` exactly when the id is absent. Otherwise that id is gone and every other id keeps its player. |
| Game.AddThenRemove | telebot/game/game.py:60-64 | Adding then removing a player leaves the player absent and everybody else as before. |
| Game.GetPlayer | telebot/game/game.py:69-70 | Returns the player stored under the id, and raises `KeyError` exactly when there is none. |
| Game.Players | telebot/game/game.py:87-89 | The players in insertion order, one per roster entry, each the one stored under its id. |
| Game.ListContains | telebot/game/game.py:66-67 | `x in list` holds exactly when some element compares equal to `x`. |
| Game.ContainsNever | telebot/game/game.py:66-67 | `user_id in game` is false for every game and every id. |
| Game.ContainsIgnoresRoster | telebot/game/game.py:60-67 | For every game and player, the player just added is listed in the roster under its user id and is still not "in" the game. |
| Game.Scores | telebot/game/game.py:91-93 | One (name, score) pair per player, in roster order. |
| Game.MaxIndex | telebot/game/game.py:95-97 | `max` by score picks an index whose score is maximal and strictly above every earlier one, that is, the first maximum. |
| Game.Winner | telebot/game/game.py:95-97 | `winner` raises `ValueError` exactly on an empty roster. Otherwise it is the first player in insertion order with the highest score. |
| Game.WinnerTopsScores | telebot/game/game.py:91-97 | No entry of `scores` is higher than the winner's score. The winner's own name and score form the first entry with that score. |
| Game.StrictLeaderWins | telebot/game/game.py:95-97 | A player whose score beats everybody else's is the winner. |
| GuguGame.NewGugu | archive/gugubot/botdogugubot.py:38-43 | A new gugu game has no players, no master and no deques, and is not started. |
| GuguGame.StartGame | archive/gugubot/botdogugubot.py:45-62 | Called with `info`, a game that is not started gets its deques and is started, and the call answers the command. Its chat id and roster are kept. Called without `info`, the body's `TypeError` is swallowed and the game is exactly as before. A started game raises `GameError`. |
| GuguGame.FinishGame | archive/gugubot/botdogugubot.py:64-71 | A started game with a named winner is stopped and the winner is announced. With no `info`, no players or an unnamed winner, the failure is swallowed and the game stays started. A game that is not started raises `GameError`. |
| GuguGame.FinishThenRestart | archive/gugubot/botdogugubot.py:64-71 | A started game whose players all have names finishes, and can then be started again. |
| GuguGame.NextMaster | archive/gugubot/botdogugubot.py:76-77 | Pops the right end of the master deque. It raises `IndexError` on an empty deque and `AttributeError` before the deques exist. |
| GuguGame.Pending | archive/gugubot/botdogugubot.py:79-83 | The order in which `ask_photo` will serve the photo deque: every photo once, the right end first, so the `i`-th served photo is the `i`-th from the right. |
| GuguGame.PendingAppendLeft | archive/gugubot/botdogugubot.py:79-83 | `appendleft` puts a photo at the back of the line that `pop` serves. |
| GuguGame.AddPhoto | archive/gugubot/botdogugubot.py:79-80 | The photo joins the back of the line and nothing else changes. Before the deques exist it raises `AttributeError`. |
| GuguGame.AskPhoto | archive/gugubot/botdogugubot.py:82-95 | The photo at the front of the line becomes the one under review and leaves the line. The photo is sent to the master, or `AttributeError` is raised when there is none. An empty line raises `IndexError`. The chat id, roster, flag, master, object and the masters and objects deques are unchanged. |
| GuguGame.AcceptPhoto | archive/gugubot/botdogugubot.py:97-99 | The sender of the photo under review gains exactly one point and every other player is unchanged. Before any photo was asked it raises `AttributeError`. |
| GuguGame.RejectServesNext | archive/gugubot/botdogugubot.py:101-102 | Rejecting moves the next photo in line under review. The rejected one is not put back. |
| GuguGame.PhotosFirstInFirstOut | archive/gugubot/botdogugubot.py:79-83 | Three photos added to an empty line are reviewed first to last, and the line ends empty. |
| GuguGame.DormantReviewFails | archive/gugubot/botdogugubot.py:76-99 | In a game that was never started, `next_master`, `add_photo`, `ask_photo` and `accept_photo` all raise `AttributeError`, with nothing changed. |
| GuguBot.StartCommand | archive/gugubot/botdogugubot.py:112-131 | Without a pending invitation, the user is told to use the join button and nothing changes. With one, the invitation is consumed. The user then joins the invited game with a score of 0 and every other game is unchanged, or `KeyError` is raised if that game is gone. |
| GuguBot.Jogar | archive/gugubot/botdogugubot.py:133-153 | Outside a group it refuses. A group that has a game is told so, replying to the command. Otherwise exactly one new, not-started game is added for the group. |
| GuguBot.Iniciar | archive/gugubot/botdogugubot.py:155-160 | With no game it raises `KeyError`, and with a started one `GameError`. Otherwise nothing changes. |
| GuguBot.SairNeverRemoves | archive/gugubot/botdogugubot.py:162-182 | `/sair` always answers that the sender is not in a game and changes nothing. |
| GuguBot.Entrar | archive/gugubot/botdogugubot.py:240-243 | The user's invitation is set to this chat, replacing an earlier one. Every other invitation and every game is unchanged. |
| GuguBot.EntrarThenStart | archive/gugubot/botdogugubot.py:112-126 | Pressing the join button and then sending `/start` puts the user in that group's game with a score of 0, and uses up the invitation. |
| GuguBot.Objeto | archive/gugubot/botdogugubot.py:245-256 | `True` succeeds exactly when a photo is under review. It then replaces the group's game by the one `accept_photo` returns, so the sender, if listed, gains exactly one point. Without a photo under review it raises `AttributeError` and changes nothing. `False` replaces the group's game by the one `ask_photo` leaves. In every case every other game is unchanged. Other data raises `GameError`, and a group without a game raises `KeyError`. Invitations and the set of games never change. |
| GuguBot.HandleKeepsDormant | archive/gugubot/botdogugubot.py:133-160 | No command takes a game out of the never-started state. |
| GuguBot.NoGameEverStarts | archive/gugubot/botdogugubot.py:133-160 | From games that were never started, no sequence of commands ever starts one. |
| GuguBot.ObjetoAlwaysFails | archive/gugubot/botdogugubot.py:245-256 | Starting from a fresh bot, after any sequence of commands, every `objeto` button press raises. |
| VilaBot.GetAnswer | archive/vilabot/vilabot.py:17-18 | VilaBot's answer is the text itself. |
| VilaBot.GetAnswerOverridesDefault | archive/vilabot/vilabot.py:17-18 | The override differs from the default answer of `Bot.get_answer` for every text. |
| VilaBot.Start | archive/vilabot/vilabot.py:20-33 | In a chat that is not started, `/start` starts it and greets with `START_TEXT`. That chat keeps its cache, every other chat and every other memory key are unchanged, and well-formedness is kept. In a started chat it returns `None` and changes nothing. An unreadable chat table raises its error. |
| VilaBot.StartOnce | archive/vilabot/vilabot.py:24-26 | A second `/start` in the same chat is ignored and changes nothing. |
| VilaBot.GatedBeforeStart | archive/vilabot/vilabot.py:35-79 | Before `/start`, `lorem`, `echo`, `mention` and `unknown` all return `None`. |
| VilaBot.AnswersAfterStart | archive/vilabot/vilabot.py:35-79 | After `/start` they all answer. `echo` and `mention` send the text back unchanged, and `mention` replies to the message. |
| VilaBot.MentionImpliesEcho | archive/vilabot/vilabot.py:46-59 | Every message the `mention` filters accept, the `echo` filters accept too. |
| VilaBot.VilaHarvest | archive/vilabot/vilabot.py:20-86 | The metaclass harvests `start` and `lorem` as commands, `echo`, `mention` and `unknown` as message handlers in that order, and `error` as the error handler. |
| VilaBot.VilaRegistration | archive/vilabot/vilabot.py:20-86 | Registration lists each command twice and registers every message handler. `error`, though harvested, is never registered. |

## Left out

- The python-telegram-bot `Updater` and dispatcher, `run`, `init`, `stop`, `static`, and the bot's `__enter__`/`__exit__`: library I/O. Which of several matching handlers runs is decided inside the library.
- Sending messages, photos and animations, `query.answer`, `parse_mode`, keyboards and deep links: library I/O. A handler's `Reply` records what would be sent. The game bot's fixed Portuguese texts are `Notice` tags.
- telebot/botlib/botlib.py, `pkload` and `pkdump`: file I/O and pickling. The file system is a map from file name to snapshot. A missing file is the only read error modelled.
- `shuffled`, `random.choice` and `lorem.paragraph`: randomness. The shuffle and the object list are the `Dice` parameter, and the paragraph is a parameter.
- Logging, the `stdout`/`stderr` streams and the bodies of the error handlers, which only print.
- The `log` layer: it is a factory registered as if it were a layer.
- `lock_awake`: it reads `chat.awake`, which `Chat` never defines.
- archive/pedrobot/pedromxavier_bot.py and the root vilabot.py: one external network call and one unconditional send.
- telebot/game/gamebot.py is not part of this model. `get_game` is taken to be `games[chat_id]` with `KeyError`, and `GameBot.command`/`query` are taken to register the handler.
- The gugubot commands `jogadores`, `comandos`, `lista`, `unknown` and `photo`, `GuguGame.update`, and the `__cast__` list: they only send text, do nothing, or rely on the `in_game` and `command_list` helpers, which are not shown.
- `GuguBot.get_answer`: no handler of that bot calls it.
- Store.Chats: a non-table value under `chats`, which only a foreign snapshot could bring in, is modelled as raising `TypeError`. Python would return it and fail only where it is used.
- `Data.__getitem__`/`__setitem__`, `Proxy.proxy`, `Proxy.NULL_FUNC` and `Layer.layer`: plain constructors and accessors.
- `_get_info` builds no `type`, `user_id`, `full_name` or `title` key, although gugubot and `lock_group` (telebot/proxy/proxy.py:96) read them. The `Info` record carries them as if it did. The `name` key used in the announcement text is not modelled: `GuguGame.start` called with an info is taken to succeed, where the missing key would raise `KeyError`. No handler passes it an info.
- Proxy.LockGroup: answers from the info's chat type. In the program as written the info dict has no `type` key, so `lock_group` raises `KeyError` on every call.
- Opening the animation files in `GuguGame.start` and `finish` is taken to succeed.
- The copy that `Chat.cache` hands out: Dafny sequences are values, so changing the copy cannot reach the chat.
- `started` and `finished`: the model keeps one flag, so `finished` is `not started` by construction.
- GuguGame.FinishGame: the announcement is sent, not returned. The model reports it as the result of the body.
- GuguGame.AcceptPhoto: the photo under review records its sender's user id, and the point goes to the roster's player under that id. The source increments the score of the `Player` object the answer carries, which is taken to be that roster object.
- VilaBot.VilaRegistration: states only that every message handler is registered, not the exact filters registered. Those follow from Bot.AddMessageHandlers.

=== FILE: bot.dfy ===
/** `Bot` and `MetaBot` (telebot/bot.py): the handler wrappers a bot's
    methods are decorated with, the marks the `command`/`message`/`set_error`
    decorators leave on a function, the tables the metaclass harvests from a
    class body, and the registration steps that hand them to the library. */
module Bot {
  import opened Exceptions
  import opened Dicts
  import opened Telegram
  import opened Store
  import opened Filters
  import ChatState
  import Layer
  import Proxy

  /** A handler method: it sees the bot's store and its positional
      arguments, and returns a reply, possibly after changing the store. */
  type Handler = (Data, Args) -> Step<Data, Reply>

  /** `Bot.with_info`: the callback is called with the single info argument. */
  function WithInfo(cb: Handler): Handler {
    Layer.WithInfo(cb)
  }

  /** `Bot.start_chat(chat_id)`: `get_chat(chat_id).start()`. */
  function StartChat(d: Data, chatId: int): (r: Data)
    requires Chats(d).Returned?
    ensures Chats(r).Returned? && Proxy.StartedIn(r, chatId)
    ensures Wf(d) ==> Wf(r)
    ensures forall k :: k != chatId ==> Get(Chats(r).value, k) == Get(Chats(d).value, k)
    ensures Get(Chats(r).value, chatId).value.cache ==
      (if chatId in Keys(Chats(d).value) then Get(Chats(d).value, chatId).value.cache else [])
    ensures r.memory.Keys == d.memory.Keys
    ensures Wf(d) ==> forall k | k in d.memory && k != "chats" :: Contents(r)[k] == Contents(d)[k]
  {
    var s := GetChat(d, chatId);
    PutChat(s.state, chatId, ChatState.Start(s.outcome.value))
  }

  /** The messages the chat under `chatId` has cached so far; none for a
      chat the store has not seen. */
  function CachedIn(t: Dict<int, ChatState.Chat>, chatId: int): seq<Message> {
    match Get(t, chatId)
    case Some(c) => c.cache
    case None => []
  }

  /** The store `Bot.cache` hands on: the message of `info` appended to the
      cache of its chat (created if new); nothing else changes. */
  function StoreAfterCaching(d: Data, info: Info): (r: Data)
    requires Chats(d).Returned?
    ensures Chats(r).Returned?
    ensures Wf(d) ==> Wf(r)
    ensures var before := Chats(d).value;
      var after := Chats(r).value;
      && Get(after, info.chatId).Some?
      && CachedIn(after, info.chatId) == CachedIn(before, info.chatId) + [info.message]
      && Get(after, info.chatId).value.chatId ==
           (if Get(before, info.chatId).Some? then Get(before, info.chatId).value.chatId else info.chatId)
      && Get(after, info.chatId).value.started == Proxy.StartedIn(d, info.chatId)
      && (forall k :: k != info.chatId ==> Get(after, k) == Get(before, k))
    ensures r.memory.Keys == d.memory.Keys
    ensures Wf(d) ==> forall k | k in d.memory && k != "chats" :: Contents(r)[k] == Contents(d)[k]
  {
    var s := GetChat(d, info.chatId);
    PutChat(s.state, info.chatId, ChatState.Save(s.outcome.value, info.message))
  }

  /** The callback `Bot.cache(callback)` returns, called with `args`: the
      message is cached exactly once, then the callback runs on the
      original arguments. */
  function CacheCall(cb: Handler, d: Data, args: Args): (r: Step<Data, Reply>)
    ensures Chats(d).Raised? ==> r == Step(d, Raised(Chats(d).error))
    ensures Chats(d).Returned? ==> r == cb(StoreAfterCaching(d, GetInfo(args)), args)
  {
    var info := GetInfo(args);
    match Chats(d)
    case Raised(e) => Step(d, Raised(e))
    case Returned(_) => cb(StoreAfterCaching(d, info), args)
  }

  /** `Bot.cache(callback)`. */
  function Cache(cb: Handler): Handler {
    (d, args) => CacheCall(cb, d, args)
  }

  /** The callback `Bot.lock_start(callback)` returns, called with `args`:
      it looks the chat up (creating it if new) and runs the callback only
      when the chat is started; otherwise it returns `None`. */
  function LockStartCall(cb: Handler, d: Data, args: Args): (r: Step<Data, Reply>)
    ensures Chats(d).Raised? ==> r == Step(d, Raised(Chats(d).error))
    ensures Chats(d).Returned? && Proxy.StartedIn(d, GetInfo(args).chatId) ==> r == cb(d, args)
    ensures Chats(d).Returned? && !Proxy.StartedIn(d, GetInfo(args).chatId) ==>
      r == Step(GetChat(d, GetInfo(args).chatId).state, Returned(Nothing))
  {
    var info := GetInfo(args);
    var s := GetChat(d, info.chatId);
    if s.outcome.Raised? then Step(d, Raised(s.outcome.error))
    else if s.outcome.value.started then cb(s.state, args)
    else Step(s.state, Returned(Nothing))
  }

  /** `Bot.lock_start(callback)`. */
  function LockStart(cb: Handler): Handler {
    (d, args) => LockStartCall(cb, d, args)
  }

  /** `Bot.lock_start` and the `lock_start` gate of telebot/proxy/proxy.py
      applied to the same handler agree: the same store afterwards, and the
      same reply, `None` when the chat is not started. */
  lemma LockStartMatchesGate(cb: Handler, d: Data, args: Args)
    ensures var g := Proxy.ApplyCall(Proxy.Attach(Proxy.LockStart(), Proxy.Guarded(cb, None)), GetInfo, d, args);
      var w := LockStartCall(cb, d, args);
      g.state == w.state && ReplyOf(g.outcome) == w.outcome
  {
    var info := GetInfo(args);
    var guarded := Proxy.Attach(Proxy.LockStart(), Proxy.Guarded(cb, None));
    var table := guarded.proxy.value;
    assert table == [("start", Proxy.LockStart().test)];
    var t := Proxy.LockStart().test(d, info);
    assert Proxy.Allow(d, info, table) == Proxy.AllPass(table, d, info);
    assert table[1..] == [];
    assert Proxy.AllPass(table, d, info) ==
      if t.outcome == Returned(true) then Step(t.state, Returned(true))
      else if t.outcome.Raised? then t
      else Step(t.state, Returned(false));
  }

  /** The marks the decorators leave on a function: `command_handler` and
      `name` from `Bot.command`, `message_handler` and `filters` from
      `Bot.message`, `kw` from either (the one applied last wins), and
      `error_handler` from `Bot.set_error`. `functools.wraps` copies them to
      every wrapper, so they survive `with_info`, `cache` and `lock_start`. */
  datatype Marks = Marks(command: Option<string>, message: Option<seq<Filter>>, kw: map<string, string>, error: bool)

  /** A class attribute no decorator has touched. */
  const Unmarked: Marks := Marks(None, None, map[], false)

  /** `Bot.command(name, **kw)` applied to a function. */
  function Command(name: string, kw: map<string, string>, m: Marks): (r: Marks)
    ensures r.message == m.message && r.error == m.error
    ensures r.kw == kw
    ensures forall h, attr :: Collect(h, attr, r).commands == h.commands + [name]
    ensures forall h, attr :: Collect(h, attr, r).commandHandlers == h.commandHandlers + [CommandEntry(name, attr, kw)]
  {
    m.(command := Some(name), kw := kw)
  }

  /** `Bot.message(*filters, **kw)` applied to a function. */
  function OnMessage(filters: seq<Filter>, kw: map<string, string>, m: Marks): (r: Marks)
    ensures r.command == m.command && r.error == m.error
    ensures r.kw == kw
    ensures forall h, attr :: Collect(h, attr, r).messageHandlers == h.messageHandlers + [MessageEntry(filters, attr, kw)]
  {
    m.(message := Some(filters), kw := kw)
  }

  /** `Bot.set_error` applied to a function. */
  function SetError(m: Marks): (r: Marks)
    ensures r.command == m.command && r.message == m.message && r.kw == m.kw
    ensures forall h, attr :: Collect(h, attr, r).errorHandler == Some(attr)
  {
    m.(error := true)
  }

  datatype CommandEntry = CommandEntry(command: string, attr: string, kw: map<string, string>)
  datatype MessageEntry = MessageEntry(filters: seq<Filter>, attr: string, kw: map<string, string>)

  /** The four class attributes `MetaBot.get_handlers` installs. A handler
      is referred to by its attribute name. */
  datatype Handlers = Handlers(
    commands: seq<string>,
    commandHandlers: seq<CommandEntry>,
    messageHandlers: seq<MessageEntry>,
    errorHandler: Option<string>)

  const NoHandlers: Handlers := Handlers([], [], [], None)

  /** One iteration of the loop in `get_handlers`. */
  function Collect(h: Handlers, name: string, m: Marks): Handlers {
    Handlers(
      h.commands + (if m.command.Some? then [m.command.value] else []),
      h.commandHandlers + (if m.command.Some? then [CommandEntry(m.command.value, name, m.kw)] else []),
      h.messageHandlers + (if m.message.Some? then [MessageEntry(m.message.value, name, m.kw)] else []),
      if m.error then Some(name) else h.errorHandler)
  }

  /** `MetaBot.get_handlers(attrs)`: walks the class body in declaration
      order. `commands` lists each command name next to its entry in
      `command_handlers`. */
  function GetHandlers(attrs: seq<(string, Marks)>): (h: Handlers)
    ensures |h.commands| == |h.commandHandlers|
    ensures forall i :: 0 <= i < |h.commands| ==> h.commandHandlers[i].command == h.commands[i]
    decreases |attrs|
  {
    if |attrs| == 0 then NoHandlers
    else
      var n := |attrs| - 1;
      Collect(GetHandlers(attrs[..n]), attrs[n].0, attrs[n].1)
  }

  /** The attribute at `i` carries the error mark and no later one does. */
  predicate LastErrorMarked(attrs: seq<(string, Marks)>, i: int) {
    0 <= i < |attrs| && attrs[i].1.error && forall j :: i < j < |attrs| ==> !attrs[j].1.error
  }

  /** `error_handler` ends up naming the last error-marked attribute, and is
      `None` only when no attribute is marked. */
  lemma {:induction false} ErrorHandlerIsLastMarked(attrs: seq<(string, Marks)>)
    ensures GetHandlers(attrs).errorHandler.None? <==> forall i :: 0 <= i < |attrs| ==> !attrs[i].1.error
    ensures GetHandlers(attrs).errorHandler.Some? ==>
      exists i :: LastErrorMarked(attrs, i) && attrs[i].0 == GetHandlers(attrs).errorHandler.value
    decreases |attrs|
  {
    if |attrs| > 0 {
      var n := |attrs| - 1;
      var init := attrs[..n];
      ErrorHandlerIsLastMarked(init);
      assert forall i :: 0 <= i < n ==> init[i] == attrs[i];
      if attrs[n].1.error {
        assert LastErrorMarked(attrs, n);
      } else if GetHandlers(init).errorHandler.Some? {
        var i :| LastErrorMarked(init, i) && init[i].0 == GetHandlers(init).errorHandler.value;
        assert LastErrorMarked(attrs, i);
      }
    }
  }

  /** Concatenation of two harvests: lists are joined, and the later error
      handler wins. */
  function Join(a: Handlers, b: Handlers): Handlers {
    Handlers(
      a.commands + b.commands,
      a.commandHandlers + b.commandHandlers,
      a.messageHandlers + b.messageHandlers,
      if b.errorHandler.Some? then b.errorHandler else a.errorHandler)
  }

  /** The harvest of a class body is the join of the harvests of its parts,
      so every table keeps declaration order. */
  lemma {:induction false} GetHandlersConcat(a: seq<(string, Marks)>, b: seq<(string, Marks)>)
    ensures GetHandlers(a + b) == Join(GetHandlers(a), GetHandlers(b))
    decreases |b|
  {
    if |b| == 0 {
      assert a + b == a;
    } else {
      var n := |b| - 1;
      assert a + b == (a + b[..n]) + [b[n]];
      assert (a + b)[..|a + b| - 1] == a + b[..n];
      GetHandlersConcat(a, b[..n]);
      var x := GetHandlers(a);
      var y := GetHandlers(b[..n]);
      assert GetHandlers(b) == Collect(y, b[n].0, b[n].1);
      assert x.commands + y.commands + (if b[n].1.command.Some? then [b[n].1.command.value] else [])
        == x.commands + (y.commands + (if b[n].1.command.Some? then [b[n].1.command.value] else []));
      assert x.commandHandlers + y.commandHandlers + (if b[n].1.command.Some? then [CommandEntry(b[n].1.command.value, b[n].0, b[n].1.kw)] else [])
        == x.commandHandlers + (y.commandHandlers + (if b[n].1.command.Some? then [CommandEntry(b[n].1.command.value, b[n].0, b[n].1.kw)] else []));
      assert x.messageHandlers + y.messageHandlers + (if b[n].1.message.Some? then [MessageEntry(b[n].1.message.value, b[n].0, b[n].1.kw)] else [])
        == x.messageHandlers + (y.messageHandlers + (if b[n].1.message.Some? then [MessageEntry(b[n].1.message.value, b[n].0, b[n].1.kw)] else []));
    }
  }

  /** Harvesting one more attribute adds exactly what its marks say. */
  lemma GetHandlersSnoc(attrs: seq<(string, Marks)>, k: nat)
    requires k < |attrs|
    ensures GetHandlers(attrs[..k + 1]) == Collect(GetHandlers(attrs[..k]), attrs[k].0, attrs[k].1)
  {
    assert attrs[..k + 1][..k] == attrs[..k];
  }

  /** One attribute contributes exactly what its marks say. */
  lemma GetHandlersOne(name: string, m: Marks)
    ensures GetHandlers([(name, m)]) == Collect(NoHandlers, name, m)
  {
    assert [(name, m)][..0] == [];
  }

  /** `Bot.add_command_handlers`: registers every command entry in order and
      appends each name to the class-level `commands` list it iterates
      beside, which the metaclass already filled with those names. */
  function AddCommandHandlers(h: Handlers): (r: (seq<CommandEntry>, seq<string>))
    ensures r.0 == h.commandHandlers
    ensures |r.1| == |h.commands| + |h.commandHandlers|
    ensures r.1[..|h.commands|] == h.commands
    ensures forall i :: 0 <= i < |h.commandHandlers| ==> r.1[|h.commands| + i] == h.commandHandlers[i].command
  {
    (h.commandHandlers, h.commands + seq(|h.commandHandlers|, i requires 0 <= i < |h.commandHandlers| => h.commandHandlers[i].command))
  }

  /** After registration the `commands` list names every command twice. */
  lemma CommandsListedTwice(attrs: seq<(string, Marks)>)
    ensures var h := GetHandlers(attrs);
      AddCommandHandlers(h).1 == h.commands + h.commands
  {
  }

  /** `Bot.add_message_handlers`: for each entry in order, the filter tuple
      is AND-folded and registered with the attribute. An empty tuple makes
      `reduce` raise `TypeError`, which stops the loop; the registrations
      made before it stay. */
  function AddMessageHandlers(registered: seq<(Filter, string)>, entries: seq<MessageEntry>): (r: Step<seq<(Filter, string)>, ()>)
    ensures r.outcome.Returned? <==> forall i :: 0 <= i < |entries| ==> |entries[i].filters| > 0
    ensures r.outcome.Raised? ==> r.outcome.error == TypeError
    ensures |registered| <= |r.state| <= |registered| + |entries| && r.state[..|registered|] == registered
    ensures forall i :: 0 <= i < |r.state| - |registered| ==>
      |entries[i].filters| > 0 && r.state[|registered| + i] == (AndFold(entries[i].filters).value, entries[i].attr)
    ensures r.outcome.Raised? ==> |entries[|r.state| - |registered|].filters| == 0
    decreases |entries|
  {
    if |entries| == 0 then Step(registered, Returned(()))
    else match AndFold(entries[0].filters)
      case Raised(e) => Step(registered, Raised(e))
      case Returned(f) =>
        var r := AddMessageHandlers(registered + [(f, entries[0].attr)], entries[1..]);
        assert forall i :: 1 <= i < |entries| ==> entries[i] == entries[1..][i - 1];
        r
  }

  /** `Bot.add_error_handler`: registers the first entry of the list it is
      given, if any, and no other. */
  function AddErrorHandler(errorHandlers: seq<string>): (r: Option<string>)
    ensures r.Some? <==> |errorHandlers| > 0
    ensures r.Some? ==> r.value == errorHandlers[0]
  {
    if |errorHandlers| == 0 then None else Some(errorHandlers[0])
  }

  /** The list `add_error_handler` reads: `self.error_handlers` resolves to
      the empty class attribute of `Bot`, because the metaclass installs
      `error_handler`, never `error_handlers`. */
  const BotErrorHandlers: seq<string> := []

  /** `Bot.load()`: loads the snapshot filed under the bot's class name,
      which `load` turns into the file name; a missing snapshot file leaves
      memory as it was. */
  function Load(d: Data, files: Files, className: string): (r: Data)
    ensures FileName(className) !in files ==> r == d
    ensures FileName(className) in files ==>
      var snap := files[FileName(className)];
      && r.memory.Keys == d.memory.Keys + snap.Keys
      && (forall k | k in snap :: Contents(r)[k] == snap[k])
      && (forall k | k in d.memory && k !in snap :: r.memory[k] == d.memory[k] && Contents(r)[k] == Contents(d)[k])
    ensures Wf(d) ==> Wf(r)
  {
    var s := Store.Load(d, files, className);
    if s.outcome.Raised? && s.outcome.error == FileNotFoundError then d else s.state
  }

  /** `Bot.get_answer(text)`: the default answer quotes the text back. */
  function GetAnswer(text: string): (r: string)
    ensures |r| == |text| + 23
    ensures r[21..21 + |text|] == text
  {
    "What do you mean by '" + text + "'?"
  }

  /** The reply both archived bots give to an unknown command. */
  function UnknownText(text: string): string {
    "Comando desconhecido: `" + text + "`"
  }

  /** The messages of every cached chat, one chat after another. */
  function Flatten(chats: seq<ChatState.Chat>): (r: seq<Message>)
    ensures forall i, m :: 0 <= i < |chats| && m in chats[i].cache ==> m in r
    ensures forall m :: m in r ==> exists i :: 0 <= i < |chats| && m in chats[i].cache
    ensures |chats| > 0 ==> |chats[0].cache| <= |r| && r[..|chats[0].cache|] == chats[0].cache
    decreases |chats|
  {
    if |chats| == 0 then []
    else
      var rest := Flatten(chats[1..]);
      assert forall i :: 1 <= i < |chats| ==> chats[i] == chats[1..][i - 1];
      chats[0].cache + rest
  }

  /** The `bot_cache` property: every cached message of every chat, in chat
      insertion order. */
  function BotCache(d: Data): (r: Outcome<seq<Message>>)
    ensures r.Returned? <==> Chats(d).Returned?
    ensures r.Returned? ==> forall k, m :: Get(Chats(d).value, k).Some? && m in Get(Chats(d).value, k).value.cache ==> m in r.value
    ensures r.Returned? ==> forall m :: m in r.value ==> exists k :: Get(Chats(d).value, k).Some? && m in Get(Chats(d).value, k).value.cache
    ensures r.Returned? ==> r.value == Flatten(Values(Chats(d).value))
  {
    match Chats(d)
    case Raised(e) => Raised(e)
    case Returned(t) =>
      var r := Flatten(Values(t));
      assert forall k :: Get(t, k).Some? ==> exists i :: 0 <= i < |t| && t[i].0 == k && Values(t)[i] == Get(t, k).value;
      assert forall i :: 0 <= i < |t| ==> Get(t, t[i].0) == Some(Values(t)[i]);
      Returned(r)
  }

  /** Flattening is a homomorphism: the messages of two runs of chats are
      the messages of the first followed by those of the second, and one
      chat contributes exactly its cache. */
  lemma {:induction false} FlattenConcat(a: seq<ChatState.Chat>, b: seq<ChatState.Chat>)
    ensures Flatten(a + b) == Flatten(a) + Flatten(b)
    ensures forall c :: Flatten([c]) == c.cache
    decreases |a|
  {
    forall c ensures Flatten([c]) == c.cache {
      assert [c][1..] == [];
    }
    if |a| == 0 {
      assert a + b == b;
    } else {
      assert (a + b)[1..] == a[1..] + b;
      FlattenConcat(a[1..], b);
    }
  }

  /** `bot_cache` lists the chats in insertion order: the chat at position
      `i` of the table contributes its whole cache, after every message of
      the chats before it and before every message of the chats after it. */
  lemma BotCacheOrder(d: Data, i: int)
    requires Chats(d).Returned? && 0 <= i < |Chats(d).value|
    ensures var t := Chats(d).value;
      BotCache(d) == Returned(Flatten(Values(t)[..i]) + t[i].1.cache + Flatten(Values(t)[i + 1..]))
  {
    var vs := Values(Chats(d).value);
    assert vs == vs[..i] + [vs[i]] + vs[i + 1..];
    FlattenConcat(vs[..i] + [vs[i]], vs[i + 1..]);
    FlattenConcat(vs[..i], [vs[i]]);
  }

  /** A message that went through `Bot.cache` shows up in `bot_cache`. */
  lemma CachedMessageInBotCache(d: Data, info: Info)
    requires Chats(d).Returned?
    ensures var r := BotCache(StoreAfterCaching(d, info));
      r.Returned? && info.message in r.value
  {
    var d' := StoreAfterCaching(d, info);
    var c := Get(Chats(d').value, info.chatId).value;
    assert CachedIn(Chats(d').value, info.chatId) == c.cache;
    assert info.message in c.cache;
  }
}

=== FILE: chat.dfy ===
/** `Chat` (telebot/chat/chat.py): one chat's persisted state, a started
    flag and the append-only cache of the messages seen in it. */
module ChatState {
  import opened Telegram

  datatype Chat = Chat(chatId: int, started: bool, cache: seq<Message>)

  /** A chat seen for the first time. */
  function NewChat(chatId: int): (c: Chat)
    ensures c.chatId == chatId && !c.started && c.cache == []
  {
    Chat(chatId, false, [])
  }

  /** `chat.start()`. */
  function Start(c: Chat): Chat {
    c.(started := true)
  }

  /** `chat.save(message)`: appends to the private cache. */
  function Save(c: Chat, m: Message): Chat {
    c.(cache := c.cache + [m])
  }

  /** The `cache` property hands out a copy of the list. A Dafny sequence is a
      value, so a caller changing its copy cannot reach the chat. */
  function Cache(c: Chat): seq<Message> {
    c.cache
  }

  /** Saving a message appends exactly it at the end and touches nothing else;
      reading the cache or starting the chat changes no other field. */
  lemma SaveAppendsOne(c: Chat, m: Message)
    ensures Cache(Save(c, m)) == Cache(c) + [m]
    ensures |Cache(Save(c, m))| == |Cache(c)| + 1
    ensures Cache(Save(c, m))[..|Cache(c)|] == Cache(c)
    ensures Save(c, m).chatId == c.chatId && Save(c, m).started == c.started
  {
  }

  /** `start` leaves the chat started whatever its state, and a second call
      changes nothing. */
  lemma StartIdempotent(c: Chat)
    ensures Start(c).started
    ensures Start(Start(c)) == Start(c)
    ensures Start(c).chatId == c.chatId && Start(c).cache == c.cache
  {
  }

  /** Saving messages one at a time. */
  function SaveAll(c: Chat, ms: seq<Message>): Chat
    decreases |ms|
  {
    if |ms| == 0 then c else SaveAll(Save(c, ms[0]), ms[1..])
  }

  /** The cache records every saved message, in the order saved, after the
      ones it already held; id and started flag are never touched. */
  lemma {:induction false} SaveAllAppends(c: Chat, ms: seq<Message>)
    ensures Cache(SaveAll(c, ms)) == Cache(c) + ms
    ensures SaveAll(c, ms).chatId == c.chatId && SaveAll(c, ms).started == c.started
    decreases |ms|
  {
    if |ms| > 0 {
      SaveAllAppends(Save(c, ms[0]), ms[1..]);
      assert c.cache + [ms[0]] + ms[1..] == c.cache + ms;
    }
  }
}

=== FILE: data.dfy ===
/** `Data` (telebot/data/data.py): the per-process store behind every bot.
    Its memory is a dict whose keys `chats` and `common` start out bound to
    the two dicts of the class-level `_MEMORY_DEFAULT`. `Data.__init__`
    copies that default shallowly, so a fresh store shares those two dicts
    with the class; `clear` binds the keys to them again, and whatever was
    written into them since is still there. The model keeps the shared
    defaults in the state and lets a memory key point at them. */
module Store {
  import opened Exceptions
  import opened Dicts
  import opened Telegram
  import opened ChatState

  /** `_EXT`, the extension of the snapshot file. */
  const Ext: string := "bot-data"

  /** A value in the memory dict, as it is pickled: the chat table, the
      shared `common` bucket, or anything else a snapshot brought in. */
  datatype Value =
    | ChatTable(chats: Dict<int, Chat>)
    | CommonTable(common: map<string, string>)
    | Opaque(blob: string)

  /** What a memory key is bound to: one of the two class-level default
      dicts, or a value of its own (one that `load` brought in). */
  datatype Slot = DefaultChats | DefaultCommon | Held(value: Value)

  datatype Data = Data(
    memory: map<string, Slot>,
    defaultChats: Dict<int, Chat>,
    defaultCommon: map<string, string>)

  /** The content of one snapshot file: the memory dict with its values. */
  type Snapshot = map<string, Value>

  /** The file system as far as the store uses it: file name to snapshot. */
  type Files = map<string, Snapshot>

  /** `Data()` in a fresh process. */
  function New(): Data {
    Data(map["chats" := DefaultChats, "common" := DefaultCommon], [], map[])
  }

  /** The value a slot stands for. */
  function Deref(d: Data, s: Slot): Value {
    match s
    case DefaultChats => ChatTable(d.defaultChats)
    case DefaultCommon => CommonTable(d.defaultCommon)
    case Held(v) => v
  }

  /** The memory as it would be pickled. */
  function Contents(d: Data): Snapshot {
    map k | k in d.memory :: Deref(d, d.memory[k])
  }

  /** The two keys the accessors read are present, and only those keys are
      bound to the class-level defaults. Every operation keeps this. */
  predicate Wf(d: Data) {
    && "chats" in d.memory && "common" in d.memory
    && (forall k | k in d.memory && d.memory[k] == DefaultChats :: k == "chats")
    && (forall k | k in d.memory && d.memory[k] == DefaultCommon :: k == "common")
  }

  /** The `chats` property. A value of another kind under the key (from a
      snapshot that was not written by `save`) is modelled as raising
      `TypeError`; Python would return that value and fail only at the first
      use that does not fit it. */
  function Chats(d: Data): (r: Outcome<Dict<int, Chat>>)
    ensures r.Returned? <==> "chats" in d.memory && Deref(d, d.memory["chats"]).ChatTable?
    ensures r.Returned? ==> r.value == Deref(d, d.memory["chats"]).chats
  {
    if "chats" !in d.memory then Raised(KeyError)
    else match Deref(d, d.memory["chats"])
      case ChatTable(t) => Returned(t)
      case _ => Raised(TypeError)
  }

  /** The `common` property. */
  function Common(d: Data): (r: Outcome<map<string, string>>)
    ensures r.Returned? <==> "common" in d.memory && Deref(d, d.memory["common"]).CommonTable?
    ensures r.Returned? ==> r.value == Deref(d, d.memory["common"]).common
  {
    if "common" !in d.memory then Raised(KeyError)
    else match Deref(d, d.memory["common"])
      case CommonTable(c) => Returned(c)
      case _ => Raised(TypeError)
  }

  /** An in-place change to the chat table, written to whichever dict the
      `chats` key is bound to. In a well-formed store no other key sees the
      change. */
  function WithChats(d: Data, t: Dict<int, Chat>): (r: Data)
    requires Chats(d).Returned?
    ensures Chats(r) == Returned(t)
    ensures r.memory.Keys == d.memory.Keys
    ensures Wf(d) ==> Wf(r)
    ensures Wf(d) ==> forall k | k in d.memory && k != "chats" :: Contents(r)[k] == Contents(d)[k]
  {
    if d.memory["chats"] == DefaultChats then d.(defaultChats := t)
    else d.(memory := d.memory["chats" := Held(ChatTable(t))])
  }

  /** `get_chat(chat_id)`: the stored chat, or a fresh one created and
      stored under that id. */
  function GetChat(d: Data, chatId: int): (r: Step<Data, Chat>)
    ensures Wf(d) ==> Wf(r.state)
    ensures Chats(d).Raised? ==> r == Step(d, Raised(Chats(d).error))
    ensures Chats(d).Returned? ==>
      var t := Chats(d).value;
      && r.outcome.Returned?
      && Chats(r.state).Returned?
      && Get(Chats(r.state).value, chatId) == Some(r.outcome.value)
      && (chatId in Keys(t) ==> r.state == d)
      && (chatId !in Keys(t) ==>
            && r.outcome.value == NewChat(chatId)
            && Keys(Chats(r.state).value) == Keys(t) + [chatId]
            && (forall k :: k != chatId ==> Get(Chats(r.state).value, k) == Get(t, k))
            && r.state.memory.Keys == d.memory.Keys
            && (Wf(d) ==> forall k | k in d.memory && k != "chats" :: Contents(r.state)[k] == Contents(d)[k]))
  {
    match Chats(d)
    case Raised(e) => Step(d, Raised(e))
    case Returned(t) =>
      match Get(t, chatId)
      case Some(c) => Step(d, Returned(c))
      case None => Step(WithChats(d, Set(t, chatId, NewChat(chatId))), Returned(NewChat(chatId)))
  }

  /** A second `get_chat` for the same id returns the same chat and changes
      nothing. */
  lemma GetChatTwice(d: Data, chatId: int)
    requires Chats(d).Returned?
    ensures var s := GetChat(d, chatId);
      GetChat(s.state, chatId) == Step(s.state, s.outcome)
  {
  }

  /** Replaces the chat stored under `chatId`: what `chat.start()` and
      `chat.save(m)` do to the object `get_chat` returned. */
  function PutChat(d: Data, chatId: int, c: Chat): (r: Data)
    requires Chats(d).Returned?
    ensures Chats(r).Returned?
    ensures Wf(d) ==> Wf(r)
    ensures Get(Chats(r).value, chatId) == Some(c)
    ensures forall k :: k != chatId ==> Get(Chats(r).value, k) == Get(Chats(d).value, k)
    ensures chatId in Keys(Chats(d).value) ==> Keys(Chats(r).value) == Keys(Chats(d).value)
    ensures r.memory.Keys == d.memory.Keys
    ensures Wf(d) ==> forall k | k in d.memory && k != "chats" :: Contents(r)[k] == Contents(d)[k]
  {
    WithChats(d, Set(Chats(d).value, chatId, c))
  }

  /** The snapshot file of a bot, used by both `load` and `save`. */
  function FileName(botName: string): string {
    botName + "." + Ext
  }

  /** Distinct bots never share a snapshot file. */
  lemma FileNameInjective(a: string, b: string)
    requires FileName(a) == FileName(b)
    ensures a == b
  {
    var suffix := "." + Ext;
    assert FileName(a) == a + suffix && FileName(b) == b + suffix;
    assert |a| == |b|;
    assert a == (a + suffix)[..|a|] == (b + suffix)[..|b|] == b;
  }

  /** `save(bot_name)`: writes the whole memory to the bot's file,
      replacing whatever it held. */
  function Save(d: Data, files: Files, botName: string): (r: Files)
    ensures FileName(botName) in r && r[FileName(botName)] == Contents(d)
    ensures forall f | f in files && f != FileName(botName) :: f in r && r[f] == files[f]
    ensures r.Keys == files.Keys + {FileName(botName)}
  {
    files[FileName(botName) := Contents(d)]
  }

  /** `load(bot_name)`: reads the bot's file, raising `FileNotFoundError`
      when there is none, and merges it over memory with `dict.update`. */
  function Load(d: Data, files: Files, botName: string): (r: Step<Data, ()>)
    ensures FileName(botName) !in files ==> r == Step(d, Raised(FileNotFoundError))
    ensures FileName(botName) in files ==>
      var snap := files[FileName(botName)];
      && r.outcome == Returned(())
      && r.state.memory.Keys == d.memory.Keys + snap.Keys
      && (forall k | k in snap :: Contents(r.state)[k] == snap[k])
      && (forall k | k in d.memory && k !in snap :: Contents(r.state)[k] == Contents(d)[k])
      && (forall k | k in d.memory && k !in snap :: r.state.memory[k] == d.memory[k])
      && r.state.defaultChats == d.defaultChats && r.state.defaultCommon == d.defaultCommon
    ensures Wf(d) ==> Wf(r.state)
  {
    var f := FileName(botName);
    if f !in files then Step(d, Raised(FileNotFoundError))
    else
      var snap := files[f];
      Step(d.(memory := d.memory + map k | k in snap :: Held(snap[k])), Returned(()))
  }

  /** Saving a store and loading the file into a fresh store reproduces the
      saved memory: chat table, common bucket and every other key. */
  lemma SaveLoadRoundTrip(d: Data, files: Files, botName: string)
    requires Wf(d)
    ensures var r := Load(New(), Save(d, files, botName), botName);
      r.outcome == Returned(()) && Contents(r.state) == Contents(d)
  {
    var r := Load(New(), Save(d, files, botName), botName);
    assert r.state.memory.Keys == d.memory.Keys;
  }

  /** `clear()`: `dict.update` with the class-level default, so only the
      `chats` and `common` keys are rebound, to the shared default dicts. */
  function Clear(d: Data): (r: Data)
    ensures r.memory.Keys == d.memory.Keys + {"chats", "common"}
    ensures r.memory["chats"] == DefaultChats && r.memory["common"] == DefaultCommon
    ensures forall k | k in d.memory && k != "chats" && k != "common" :: r.memory[k] == d.memory[k]
    ensures r.defaultChats == d.defaultChats && r.defaultCommon == d.defaultCommon
    ensures Wf(d) ==> Wf(r)
  {
    d.(memory := d.memory["chats" := DefaultChats]["common" := DefaultCommon])
  }

  /** `clear` does not empty the chat table of a store that was never
      loaded: the `chats` key is still bound to the shared default dict, and
      the chats created since live in that very dict. */
  lemma ClearKeepsSharedChats(d: Data)
    requires Wf(d) && d.memory["chats"] == DefaultChats
    ensures Chats(Clear(d)) == Chats(d)
  {
  }

  /** In a store never loaded (a fresh one among them), a chat that
      `get_chat` creates or finds survives `clear`: the chat table after
      `clear` is the one before it, and it lists the chat. */
  lemma ClearAfterGetChat(d: Data, chatId: int)
    requires Wf(d) && d.memory["chats"] == DefaultChats
    ensures var s := GetChat(d, chatId);
      && Chats(Clear(s.state)) == Chats(s.state)
      && chatId in Keys(Chats(Clear(s.state)).value)
  {
    var s := GetChat(d, chatId);
    assert s.state.memory == d.memory;
    ClearKeepsSharedChats(s.state);
  }
}

=== FILE: dicts.dfy ===
/** Python's built-in `dict`, which remembers insertion order: assigning to a
    new key appends it, assigning to an existing key replaces its value in
    place, and deleting a key closes the gap. The order matters to the bots
    (`max` over a player roster, `all` over a gate table, concatenating the
    per-chat caches), so a dict is a sequence of entries with distinct keys
    rather than a Dafny `map`. */
module Dicts {
  import opened Exceptions

  /** No key occurs in two entries. */
  predicate DistinctKeys<K(==), V>(s: seq<(K, V)>) {
    forall i, j :: 0 <= i < j < |s| ==> s[i].0 != s[j].0
  }

  /** A dict: its entries in insertion order, each key at most once. */
  type Dict<K(==), V> = s: seq<(K, V)> | DistinctKeys(s) witness []

  /** The keys, in insertion order (`list(d)`). */
  function Keys<K(==), V>(d: Dict<K, V>): (ks: seq<K>)
    ensures |ks| == |d|
    ensures forall i :: 0 <= i < |d| ==> ks[i] == d[i].0
  {
    seq(|d|, i requires 0 <= i < |d| => d[i].0)
  }

  /** The values, in insertion order (`list(d.values())`). */
  function Values<K(==), V>(d: Dict<K, V>): (vs: seq<V>)
    ensures |vs| == |d|
    ensures forall i :: 0 <= i < |d| ==> vs[i] == d[i].1
  {
    seq(|d|, i requires 0 <= i < |d| => d[i].1)
  }

  /** The position of the entry for `k`, or -1 when there is none. */
  function Find<K(==), V>(s: seq<(K, V)>, k: K): (i: int)
    ensures -1 <= i < |s|
    ensures 0 <= i ==> s[i].0 == k
    ensures i == -1 ==> forall j :: 0 <= j < |s| ==> s[j].0 != k
  {
    if |s| == 0 then -1
    else if s[0].0 == k then 0
    else
      var j := Find(s[1..], k);
      if j == -1 then -1 else j + 1
  }

  /** `d.get(k)`: the value stored under `k`, if any. */
  function Get<K(==), V>(d: Dict<K, V>, k: K): (r: Option<V>)
    ensures r.Some? <==> k in Keys(d)
    ensures forall i :: 0 <= i < |d| && d[i].0 == k ==> r == Some(d[i].1)
  {
    var i := Find(d, k);
    if i < 0 then None else Some(d[i].1)
  }

  /** `d[k] = v`: a new key goes to the end, an existing key keeps its place. */
  function Set<K(==, !new), V>(d: Dict<K, V>, k: K, v: V): (r: Dict<K, V>)
    ensures Get(r, k) == Some(v)
    ensures forall k' :: k' != k ==> Get(r, k') == Get(d, k')
    ensures Keys(r) == if k in Keys(d) then Keys(d) else Keys(d) + [k]
  {
    var i := Find(d, k);
    if 0 <= i then
      var r := d[i := (k, v)];
      assert forall j :: 0 <= j < |d| ==> r[j].0 == d[j].0;
      assert Keys(r) == Keys(d);
      r
    else
      var r := d + [(k, v)];
      assert Keys(r) == Keys(d) + [k];
      r
  }

  /** `del d[k]` when `k` is present (callers raise `KeyError` otherwise);
      the remaining entries keep their order. */
  function Remove<K(==, !new), V>(d: Dict<K, V>, k: K): (r: Dict<K, V>)
    ensures Get(r, k) == None
    ensures forall k' :: k' != k ==> Get(r, k') == Get(d, k')
    ensures k !in Keys(d) ==> r == d
    ensures k in Keys(d) ==> exists i :: 0 <= i < |d| && d[i].0 == k && r == d[..i] + d[i + 1..]
  {
    var i := Find(d, k);
    if i < 0 then d
    else
      var r := d[..i] + d[i + 1..];
      RemoveAtKeepsOthers(d, i);
      r
  }

  /** Dropping the entry at position `i` leaves every other key's value alone. */
  lemma RemoveAtKeepsOthers<K(!new), V>(d: Dict<K, V>, i: nat)
    requires i < |d|
    ensures DistinctKeys(d[..i] + d[i + 1..])
    ensures forall k' :: k' != d[i].0 ==> Get(d[..i] + d[i + 1..], k') == Get(d, k')
  {
    var r: Dict<K, V> := d[..i] + d[i + 1..];
    assert forall j :: 0 <= j < |r| ==> r[j] == if j < i then d[j] else d[j + 1];
    forall k' | k' != d[i].0
      ensures Get(r, k') == Get(d, k')
    {
      if k' in Keys(d) {
        var j := Find(d, k');
        if j < i {
          assert r[j] == d[j];
        } else {
          assert r[j - 1] == d[j];
        }
      } else {
        assert k' !in Keys(r);
      }
    }
  }
}

=== FILE: exceptions.dfy ===
/** The small slice of Python's runtime the bots rely on: optional values,
    the exceptions the modelled code raises or catches, and the two ways a
    call can end (returning a value or raising). */
module Exceptions {

  /** Python's `None` or a value. */
  datatype Option<+T> = None | Some(value: T)

  /** The exception classes raised or caught by the modelled code. */
  datatype Exception =
    | GameError(message: string)   // telebot/game/game.py, raised by the game guards
    | KeyError                     // missing dict key (`del d[k]`, `d.pop(k)`, `d[k]`)
    | IndexError                   // `deque.pop()` on an empty deque
    | TypeError                    // wrong call arity, `reduce` of an empty sequence, ...
    | AttributeError               // reading an attribute that was never set
    | ValueError                   // `max` of an empty sequence
    | FileNotFoundError            // opening a snapshot file that does not exist

  /** How a call ended: it returned a value or it raised. */
  datatype Outcome<+R> = Returned(value: R) | Raised(error: Exception)

  /** A call on a mutable object: the object's state afterwards together with
      how the call ended. A body that mutates `self` and then raises leaves
      its mutation behind, so the state is kept on both paths. */
  datatype Step<+S, +R> = Step(state: S, outcome: Outcome<R>)
}

=== FILE: filters.dfy ===
/** Message filters: the library's built-in filters and their `~`/`&`
    combinators, the AND-fold `Bot.add_message_handlers` builds from a
    handler's filter tuple (telebot/bot.py), and the custom `Mention` filter
    (telebot/filters/filters.py). */
module Filters {
  import opened Exceptions
  import opened Telegram

  /** A filter expression. What a built-in filter such as `Filters.text`
      accepts is decided inside the library, so its meaning is a parameter
      of `Holds`. */
  datatype Filter =
    | Builtin(name: string)        // `Filters.command`, `Filters.text`, `Filters.entity('mention')`, ...
    | Invert(inner: Filter)        // `~f`
    | Both(left: Filter, right: Filter)  // `f & g`
    | Mention(username: string)    // `Mention(username)`

  /** Whether a message passes a filter, given what each built-in accepts. */
  function Holds(f: Filter, builtin: (string, Message) -> bool, m: Message): bool {
    match f
    case Builtin(name) => builtin(name, m)
    case Invert(g) => !Holds(g, builtin, m)
    case Both(g, h) => Holds(g, builtin, m) && Holds(h, builtin, m)
    case Mention(username) => MentionFilter(username, m)
  }

  /** Every filter of the tuple passes. */
  predicate AllHold(fs: seq<Filter>, builtin: (string, Message) -> bool, m: Message) {
    forall i :: 0 <= i < |fs| ==> Holds(fs[i], builtin, m)
  }

  /** `reduce(lambda x, y: x & y, rest, acc)`: folds from the left. */
  function FoldAnd(acc: Filter, rest: seq<Filter>): Filter
    decreases |rest|
  {
    if |rest| == 0 then acc else FoldAnd(Both(acc, rest[0]), rest[1..])
  }

  /** `reduce(lambda x, y: x & y, filters)` with no initial value: raises
      `TypeError` on an empty tuple, returns a single filter unchanged. */
  function AndFold(fs: seq<Filter>): (r: Outcome<Filter>)
    ensures r.Raised? <==> |fs| == 0
    ensures r.Raised? ==> r.error == TypeError
    ensures |fs| == 1 ==> r == Returned(fs[0])
  {
    if |fs| == 0 then Raised(TypeError) else Returned(FoldAnd(fs[0], fs[1..]))
  }

  lemma {:induction false} FoldAndMeansAll(acc: Filter, rest: seq<Filter>, builtin: (string, Message) -> bool, m: Message)
    ensures Holds(FoldAnd(acc, rest), builtin, m) <==> Holds(acc, builtin, m) && AllHold(rest, builtin, m)
    decreases |rest|
  {
    if |rest| > 0 {
      FoldAndMeansAll(Both(acc, rest[0]), rest[1..], builtin, m);
      assert AllHold(rest, builtin, m) <==> Holds(rest[0], builtin, m) && AllHold(rest[1..], builtin, m) by {
        if Holds(rest[0], builtin, m) && AllHold(rest[1..], builtin, m) {
          forall i | 0 <= i < |rest| ensures Holds(rest[i], builtin, m) {
            if i > 0 { assert rest[i] == rest[1..][i - 1]; }
          }
        }
      }
    }
  }

  /** The combined filter of a non-empty tuple accepts a message exactly
      when every filter of the tuple does. */
  lemma AndFoldMeansAll(fs: seq<Filter>, builtin: (string, Message) -> bool, m: Message)
    requires |fs| > 0
    ensures Holds(AndFold(fs).value, builtin, m) <==> AllHold(fs, builtin, m)
  {
    FoldAndMeansAll(fs[0], fs[1..], builtin, m);
    assert fs == [fs[0]] + fs[1..];
  }

  /** Python's `text[i:j]`: a negative bound counts from the end, and both
      bounds are clamped to the string. */
  function Slice(text: string, i: int, j: int): (r: string)
    ensures exists a, b :: 0 <= a <= b <= |text| && r == text[a..b]
    ensures 0 <= i <= j <= |text| ==> r == text[i..j]
    ensures |text| <= i ==> r == []
    ensures 0 <= i <= |text| < j ==> r == text[i..]
    ensures 0 <= j <= i ==> r == []
    ensures j + |text| < 0 ==> r == []
  {
    var start := SliceBound(i, |text|);
    var stop := SliceBound(j, |text|);
    if stop <= start then
      assert text[0..0] == [];
      []
    else text[start..stop]
  }

  /** One slice bound, normalised into `0..n`. */
  function SliceBound(x: int, n: nat): (b: nat)
    ensures b <= n
    ensures 0 <= x <= n ==> b == x
    ensures x > n ==> b == n
    ensures x < 0 && 0 <= x + n ==> b == x + n
    ensures x + n < 0 ==> b == 0
  {
    if x < 0 then (if x + n < 0 then 0 else x + n)
    else if x > n then n
    else x
  }

  /** Python's slicing rules: a negative bound counts from the end of the
      string, and a bound past either end is clamped to that end. */
  lemma SliceClamps(text: string, i: int, j: int)
    ensures i < 0 && 0 <= i + |text| ==> Slice(text, i, j) == Slice(text, i + |text|, j)
    ensures j < 0 && 0 <= j + |text| ==> Slice(text, i, j) == Slice(text, i, j + |text|)
    ensures i + |text| < 0 ==> Slice(text, i, j) == Slice(text, 0, j)
    ensures |text| < j ==> Slice(text, i, j) == Slice(text, i, |text|)
    ensures j + |text| < 0 ==> Slice(text, i, j) == Slice(text, i, 0)
  {
  }

  /** The entity is a mention whose text span is `@username`. */
  predicate MentionsUser(username: string, text: string, e: Entity) {
    e.kind == "mention" && Slice(text, e.offset, e.offset + e.length) == "@" + username
  }

  /** `Mention.filter`: scans the entities in order and stops at the first
      mention of the user; the `for ... else` yields False when none is. */
  function MentionFilter(username: string, m: Message): (r: bool)
    ensures r <==> exists k :: 0 <= k < |m.entities| && MentionsUser(username, m.text, m.entities[k])
  {
    AnyMention(username, m.text, m.entities)
  }

  function AnyMention(username: string, text: string, es: seq<Entity>): (r: bool)
    ensures r <==> exists k :: 0 <= k < |es| && MentionsUser(username, text, es[k])
    decreases |es|
  {
    if |es| == 0 then false
    else if MentionsUser(username, text, es[0]) then true
    else
      var rest := AnyMention(username, text, es[1..]);
      assert rest <==> exists k :: 1 <= k < |es| && MentionsUser(username, text, es[k]) by {
        if rest {
          var k :| 0 <= k < |es[1..]| && MentionsUser(username, text, es[1..][k]);
          assert es[k + 1] == es[1..][k];
        }
        if exists k :: 1 <= k < |es| && MentionsUser(username, text, es[k]) {
          var k :| 1 <= k < |es| && MentionsUser(username, text, es[k]);
          assert es[1..][k - 1] == es[k];
        }
      }
      rest
  }

  /** Entities of other types never make the filter match, and a message
      without entities never matches. */
  lemma OnlyMentionsMatch(username: string, m: Message)
    requires forall k :: 0 <= k < |m.entities| ==> m.entities[k].kind != "mention"
    ensures !MentionFilter(username, m)
  {
  }

  /** A mention entity whose span lies inside the text matches exactly when
      that span spells `@username`. */
  lemma MentionInRange(username: string, m: Message)
    requires |m.entities| == 1 && m.entities[0].kind == "mention"
    requires 0 <= m.entities[0].offset && 0 <= m.entities[0].length
    requires m.entities[0].offset + m.entities[0].length <= |m.text|
    ensures var e := m.entities[0];
      MentionFilter(username, m) <==> m.text[e.offset..e.offset + e.length] == "@" + username
  {
  }
}

=== FILE: game.dfy ===
/** `Player`, `GameError` and `Game` (telebot/game/game.py): a game bound to
    one group chat, with a roster of players keyed by user id and a
    started/finished flag that the `Game.start` and `Game.finish` decorators
    guard. A game kind built on `Game` keeps its own fields in `ext`. */
module Game {
  import opened Exceptions
  import opened Dicts

  /** `Player(user_id, chat_id, full_name=None)`; the score starts at 0.
      `chatId` is the private chat the player talks to the bot in. */
  datatype Player = Player(userId: int, chatId: int, fullName: Option<string>, score: int)

  function NewPlayer(userId: int, chatId: int, fullName: Option<string>): (p: Player)
    ensures p.userId == userId && p.chatId == chatId && p.fullName == fullName
    ensures p.score == 0
  {
    Player(userId, chatId, fullName, 0)
  }

  /** `str(player)`: the full name. A player created without one has no
      string form, and formatting it raises `TypeError`. */
  function PlayerText(p: Player): (r: Outcome<string>)
    ensures r.Returned? <==> p.fullName.Some?
    ensures r.Returned? ==> r.value == p.fullName.value
    ensures r.Raised? ==> r.error == TypeError
  {
    match p.fullName
    case Some(name) => Returned(name)
    case None => Raised(TypeError)
  }

  /** A game: its chat, the private `__players` dict, the private
      `__started` flag, and whatever the game kind adds. */
  datatype Game<E> = Game(chatId: int, roster: Dict<int, Player>, started: bool, ext: E)

  /** `Game(bot, chat_id)`: no players, not started. */
  function NewGame<E>(chatId: int, ext: E): (g: Game<E>)
    ensures g.chatId == chatId && g.ext == ext
    ensures |g.roster| == 0 && !g.started
  {
    Game(chatId, [], false, ext)
  }

  /** The messages of the `GameError`s the two decorators raise. */
  const AlreadyStarted: string := "Game already started."
  const AlreadyFinished: string := "Game already finished."

  /** The method `Game.start(callback)` returns, called on `g`. When the
      game is already started it raises `GameError` and nothing changes.
      Otherwise the flag is set and the body runs; a body that returns
      hands its value back, and a body that raises anything at all has its
      exception swallowed: the flag is cleared again and `None` comes back,
      while whatever else the body changed before raising stays changed. */
  function Start<E, R>(g: Game<E>, body: Game<E> -> Step<Game<E>, R>): (r: Step<Game<E>, Option<R>>)
    ensures g.started ==> r == Step(g, Raised(GameError(AlreadyStarted)))
    ensures !g.started ==> r.outcome.Returned?
    ensures !g.started && body(g.(started := true)).outcome.Returned? ==>
      r == Step(body(g.(started := true)).state, Returned(Some(body(g.(started := true)).outcome.value)))
    ensures !g.started && body(g.(started := true)).outcome.Raised? ==>
      r.outcome == Returned(None) && !r.state.started
      && r.state == body(g.(started := true)).state.(started := false)
  {
    if g.started then Step(g, Raised(GameError(AlreadyStarted)))
    else
      var s := body(g.(started := true));
      match s.outcome
      case Returned(v) => Step(s.state, Returned(Some(v)))
      case Raised(_) => Step(s.state.(started := false), Returned(None))
  }

  /** The method `Game.finish(callback)` returns, called on `g`: the mirror
      image of `Start`. It raises `GameError` on a game that is not started;
      otherwise it clears the flag and runs the body, and a body that raises
      has its exception swallowed and the flag set again. */
  function Finish<E, R>(g: Game<E>, body: Game<E> -> Step<Game<E>, R>): (r: Step<Game<E>, Option<R>>)
    ensures !g.started ==> r == Step(g, Raised(GameError(AlreadyFinished)))
    ensures g.started ==> r.outcome.Returned?
    ensures g.started && body(g.(started := false)).outcome.Returned? ==>
      r == Step(body(g.(started := false)).state, Returned(Some(body(g.(started := false)).outcome.value)))
    ensures g.started && body(g.(started := false)).outcome.Raised? ==>
      r.outcome == Returned(None) && r.state.started
      && r.state == body(g.(started := false)).state.(started := true)
  {
    if !g.started then Step(g, Raised(GameError(AlreadyFinished)))
    else
      var s := body(g.(started := false));
      match s.outcome
      case Returned(v) => Step(s.state, Returned(Some(v)))
      case Raised(_) => Step(s.state.(started := true), Returned(None))
  }

  /** A body that does not touch the flag. */
  predicate KeepsFlag<E, R>(body: Game<E> -> Step<Game<E>, R>, g: Game<E>) {
    body(g).state.started == g.started
  }

  /** Starting twice: the second call raises `GameError` and changes
      nothing, whatever either body does. */
  lemma StartTwice<E, R>(g: Game<E>, b1: Game<E> -> Step<Game<E>, R>, b2: Game<E> -> Step<Game<E>, R>)
    requires !g.started && KeepsFlag(b1, g.(started := true)) && b1(g.(started := true)).outcome.Returned?
    ensures var s := Start(g, b1).state;
      s.started && Start(s, b2) == Step(s, Raised(GameError(AlreadyStarted)))
  {
  }

  /** Finishing a game that never started raises `GameError`. */
  lemma FinishBeforeStart<E, R>(chatId: int, ext: E, body: Game<E> -> Step<Game<E>, R>)
    ensures Finish(NewGame(chatId, ext), body) == Step(NewGame(chatId, ext), Raised(GameError(AlreadyFinished)))
  {
  }

  /** A start whose body raises leaves the game where a fresh start finds it:
      another start is allowed. Likewise a finish whose body returns without
      touching the flag leaves the game startable again. */
  lemma StartFinishRestartable<E, R>(g: Game<E>, body: Game<E> -> Step<Game<E>, R>, again: Game<E> -> Step<Game<E>, R>)
    ensures !g.started && body(g.(started := true)).outcome.Raised? ==>
      Start(Start(g, body).state, again).outcome.Returned?
    ensures g.started && KeepsFlag(body, g.(started := false)) && body(g.(started := false)).outcome.Returned? ==>
      Start(Finish(g, body).state, again).outcome.Returned?
  {
  }

  /** `with game:`: `__enter__` sets the flag and `__exit__` clears it, with
      no guard either way. */
  function Enter<E>(g: Game<E>): (r: Game<E>)
    ensures r.started && r.(started := g.started) == g
  {
    g.(started := true)
  }

  function Exit<E>(g: Game<E>): (r: Game<E>)
    ensures !r.started && r.(started := g.started) == g
  {
    g.(started := false)
  }

  /** After a `with` block the game can be started again, and inside it the
      start decorator refuses. */
  lemma WithBlockRestores<E, R>(g: Game<E>, body: Game<E> -> Step<Game<E>, R>)
    ensures Start(Enter(g), body) == Step(Enter(g), Raised(GameError(AlreadyStarted)))
    ensures Start(Exit(Enter(g)), body).outcome.Returned?
  {
  }

  /** `add_player(player)`: files the player under its user id, replacing a
      player with the same id. */
  function AddPlayer<E>(g: Game<E>, p: Player): (r: Game<E>)
    ensures r.chatId == g.chatId && r.started == g.started && r.ext == g.ext
    ensures Get(r.roster, p.userId) == Some(p)
    ensures forall u :: u != p.userId ==> Get(r.roster, u) == Get(g.roster, u)
  {
    g.(roster := Set(g.roster, p.userId, p))
  }

  /** `rmv_player(user_id)`: `del` raises `KeyError` for an unknown id. */
  function RmvPlayer<E>(g: Game<E>, userId: int): (r: Outcome<Game<E>>)
    ensures r.Raised? <==> userId !in Keys(g.roster)
    ensures r.Raised? ==> r.error == KeyError
    ensures r.Returned? ==> var h := r.value;
      h.chatId == g.chatId && h.started == g.started && h.ext == g.ext
      && Get(h.roster, userId) == None
      && forall u :: u != userId ==> Get(h.roster, u) == Get(g.roster, u)
  {
    if userId in Keys(g.roster) then Returned(g.(roster := Remove(g.roster, userId)))
    else Raised(KeyError)
  }

  /** Adding then removing a player leaves the roster of everybody else as
      it was, and the player gone. */
  lemma AddThenRemove<E>(g: Game<E>, p: Player)
    ensures var r := RmvPlayer(AddPlayer(g, p), p.userId);
      r.Returned? && Get(r.value.roster, p.userId) == None
      && forall u :: u != p.userId ==> Get(r.value.roster, u) == Get(g.roster, u)
  {
    assert p.userId in Keys(AddPlayer(g, p).roster);
  }

  /** `game[user_id]`: the player under that id, `KeyError` if none. */
  function GetPlayer<E>(g: Game<E>, userId: int): (r: Outcome<Player>)
    ensures r.Returned? <==> userId in Keys(g.roster)
    ensures r.Raised? ==> r.error == KeyError
    ensures r.Returned? ==> exists i :: 0 <= i < |g.roster| && g.roster[i] == (userId, r.value)
  {
    match Get(g.roster, userId)
    case Some(p) => Returned(p)
    case None => Raised(KeyError)
  }

  /** The Python values the membership test compares. A `Player` defines no
      `__eq__`, so Python compares two players by identity; the model
      compares them by value, which differs only between two distinct
      player objects with equal fields. A player never equals an int. */
  datatype PyValue = PyInt(i: int) | PyPlayer(p: Player)

  /** `a == b` on those values. */
  function PyEq(a: PyValue, b: PyValue): bool {
    match (a, b)
    case (PyInt(x), PyInt(y)) => x == y
    case (PyPlayer(p), PyPlayer(q)) => p == q
    case _ => false
  }

  /** The `players` property: the players in insertion order. */
  function Players<E>(g: Game<E>): (r: seq<Player>)
    ensures |r| == |g.roster|
    ensures forall i :: 0 <= i < |r| ==> Get(g.roster, g.roster[i].0) == Some(r[i])
  {
    Values(g.roster)
  }

  /** `x in xs` on a list: some element compares equal. */
  function ListContains(x: PyValue, xs: seq<PyValue>): (r: bool)
    ensures r <==> exists i :: 0 <= i < |xs| && PyEq(x, xs[i])
    decreases |xs|
  {
    if |xs| == 0 then false
    else if PyEq(x, xs[0]) then true
    else
      var rest := ListContains(x, xs[1..]);
      assert forall i :: 1 <= i < |xs| ==> xs[i] == xs[1..][i - 1];
      assert rest ==> exists i :: 1 <= i < |xs| && PyEq(x, xs[i]) by {
        if rest {
          var j :| 0 <= j < |xs[1..]| && PyEq(x, xs[1..][j]);
          assert PyEq(x, xs[j + 1]);
        }
      }
      rest
  }

  /** `user_id in game`: `__contains__` looks the id up in the list of
      player objects rather than in the dict keyed by id. */
  function Contains<E>(g: Game<E>, userId: int): bool {
    var ps := Players(g);
    ListContains(PyInt(userId), seq(|ps|, i requires 0 <= i < |ps| => PyPlayer(ps[i])))
  }

  /** So a user is never "in" a game, not even one listing them. */
  lemma ContainsNever<E>(g: Game<E>, userId: int)
    ensures !Contains(g, userId)
  {
  }

  /** The player just added is listed in the roster and is still not "in"
      the game. */
  lemma ContainsIgnoresRoster<E>(g: Game<E>, p: Player)
    ensures var g' := AddPlayer(g, p);
      p.userId in Keys(g'.roster) && !Contains(g', p.userId)
  {
    var g' := AddPlayer(g, p);
    assert Get(g'.roster, p.userId).Some?;
  }

  /** The `scores` property: name and score of every player, in order. */
  function Scores<E>(g: Game<E>): (r: seq<(Option<string>, int)>)
    ensures |r| == |g.roster|
    ensures forall i :: 0 <= i < |r| ==> r[i] == (g.roster[i].1.fullName, g.roster[i].1.score)
  {
    seq(|g.roster|, i requires 0 <= i < |g.roster| => (g.roster[i].1.fullName, g.roster[i].1.score))
  }

  /** The winner tops the scores: no listed score is higher than the
      winner's, and the winner's own name and score are the first entry with
      that score. */
  lemma WinnerTopsScores<E>(g: Game<E>)
    requires |g.roster| > 0
    ensures var w := Winner(g).value;
      var sc := Scores(g);
      && (forall i :: 0 <= i < |sc| ==> sc[i].1 <= w.score)
      && exists k :: 0 <= k < |sc| && sc[k] == (w.fullName, w.score) && forall j :: 0 <= j < k ==> sc[j].1 < w.score
  {
    var ps := Players(g);
    assert ps == Values(g.roster);
    var k := MaxIndex(ps);
    assert Winner(g) == Returned(ps[k]);
    var w := ps[k];
    var sc := Scores(g);
    forall i | 0 <= i < |sc| ensures sc[i].1 <= w.score {
      assert sc[i].1 == ps[i].score;
    }
    forall j | 0 <= j < k ensures sc[j].1 < w.score {
      assert sc[j].1 == ps[j].score;
    }
    assert sc[k] == (w.fullName, w.score);
  }

  /** `max(players, key=score)` on a non-empty list: Python keeps the first
      of several equal maxima. */
  function MaxIndex(ps: seq<Player>): (k: nat)
    requires |ps| > 0
    ensures k < |ps|
    ensures forall j :: 0 <= j < |ps| ==> ps[j].score <= ps[k].score
    ensures forall j :: 0 <= j < k ==> ps[j].score < ps[k].score
    decreases |ps|
  {
    if |ps| == 1 then 0
    else
      var n := |ps| - 1;
      var k := MaxIndex(ps[..n]);
      assert forall j :: 0 <= j < n ==> ps[..n][j] == ps[j];
      if ps[n].score > ps[k].score then n else k
  }

  /** The `winner` property: the first player with the highest score.
      `max` of an empty list raises `ValueError`. */
  function Winner<E>(g: Game<E>): (r: Outcome<Player>)
    ensures r.Raised? <==> |g.roster| == 0
    ensures r.Raised? ==> r.error == ValueError
    ensures r.Returned? ==> exists k :: (0 <= k < |g.roster| && r.value == g.roster[k].1
      && (forall j :: 0 <= j < |g.roster| ==> g.roster[j].1.score <= r.value.score)
      && (forall j :: 0 <= j < k ==> g.roster[j].1.score < r.value.score))
  {
    var ps := Players(g);
    if |ps| == 0 then Raised(ValueError)
    else
      var k := MaxIndex(ps);
      assert ps[k] == g.roster[k].1;
      Returned(ps[k])
  }

  /** A player whose score is strictly higher than everybody else's wins. */
  lemma StrictLeaderWins<E>(g: Game<E>, k: nat)
    requires k < |g.roster|
    requires forall j :: 0 <= j < |g.roster| && j != k ==> g.roster[j].1.score < g.roster[k].1.score
    ensures Winner(g) == Returned(g.roster[k].1)
  {
  }
}

=== FILE: gugubot.dfy ===
/** `GuguBot` (archive/gugubot/botdogugubot.py): the commands that create
    games in group chats, let users join them from a private chat, and
    drive the review of photos. The bot keeps the games by group chat id
    and the pending invitations by user id; the order of either dict is
    never observed, so both are maps. */
module GuguBot {
  import opened Exceptions
  import opened Dicts
  import opened Telegram
  import opened Game
  import opened GuguGame

  datatype Coordinator = Coordinator(games: map<int, Gugu>, queue: map<int, int>)

  /** A bot that has seen no command yet. */
  const Fresh: Coordinator := Coordinator(map[], map[])

  /** `info['type'] in {'group', 'supergroup'}`. */
  predicate InGroup(info: Info) {
    info.chatType == "group" || info.chatType == "supergroup"
  }

  /** `get_game(info)`: the game of the chat the update came from; a chat
      without one raises `KeyError`. */
  function GameAt(c: Coordinator, chatId: int): (r: Option<Gugu>)
    ensures r.Some? <==> chatId in c.games
    ensures r.Some? ==> r.value == c.games[chatId]
  {
    if chatId in c.games then Some(c.games[chatId]) else None
  }

  /** `/start`, sent in the private chat after pressing the join button:
      redeems the pending invitation of the user. Without one the user is
      told to use the button. The invitation is popped before the game is
      looked up, so an invitation to a game that is gone raises `KeyError`
      and is lost. */
  function StartCommand(c: Coordinator, info: Info): (r: Step<Coordinator, Reply>)
    ensures info.userId !in c.queue ==> r == Step(c, Returned(Notify(info.chatId, UseJoinButton, None)))
    ensures info.userId in c.queue ==> r.state.queue == c.queue - {info.userId}
    ensures info.userId in c.queue && c.queue[info.userId] !in c.games ==>
      r == Step(c.(queue := c.queue - {info.userId}), Raised(KeyError))
    ensures info.userId in c.queue && c.queue[info.userId] in c.games ==>
      var id := c.queue[info.userId];
      && r.outcome == Returned(Notify(info.chatId, JoinedGame, None))
      && r.state.games.Keys == c.games.Keys
      && r.state.games[id] == AddPlayer(c.games[id], NewPlayer(info.userId, info.chatId, Some(info.fullName)))
      && (forall k | k in c.games && k != id :: r.state.games[k] == c.games[k])
  {
    if info.userId !in c.queue then Step(c, Returned(Notify(info.chatId, UseJoinButton, None)))
    else
      var id := c.queue[info.userId];
      var c1 := c.(queue := c.queue - {info.userId});
      match GameAt(c, id)
      case None => Step(c1, Raised(KeyError))
      case Some(g) =>
        var p := NewPlayer(info.userId, info.chatId, Some(info.fullName));
        Step(c1.(games := c.games[id := AddPlayer(g, p)]), Returned(Notify(info.chatId, JoinedGame, None)))
  }

  /** `/jogar`: outside a group it refuses, in a group that has a game it
      says so; otherwise it creates the game and calls its `start` with no
      arguments, whose `TypeError` the decorator swallows. */
  function Jogar(c: Coordinator, info: Info, dice: Dice): (r: Step<Coordinator, Reply>)
    ensures !InGroup(info) ==> r == Step(c, Returned(Notify(info.chatId, NeedGroup, None)))
    ensures InGroup(info) && info.chatId in c.games ==>
      r == Step(c, Returned(Notify(info.chatId, GameRunning, Some(info.messageId))))
    ensures InGroup(info) && info.chatId !in c.games ==>
      && r.outcome == Returned(Nothing)
      && r.state.queue == c.queue
      && r.state.games == c.games[info.chatId := NewGugu(info.chatId)]
  {
    if !InGroup(info) then Step(c, Returned(Notify(info.chatId, NeedGroup, None)))
    else if info.chatId in c.games then Step(c, Returned(Notify(info.chatId, GameRunning, Some(info.messageId))))
    else
      var s := StartGame(NewGugu(info.chatId), None, dice);
      Step(c.(games := c.games[info.chatId := s.state]), ReplyOf(s.outcome))
  }

  /** `/iniciar`: calls `start` on the chat's game, again with no arguments.
      The decorator raises `GameError` for a started game; otherwise the
      body's `TypeError` is swallowed and nothing changes. */
  function Iniciar(c: Coordinator, info: Info, dice: Dice): (r: Step<Coordinator, Reply>)
    ensures info.chatId !in c.games ==> r == Step(c, Raised(KeyError))
    ensures info.chatId in c.games && c.games[info.chatId].started ==>
      r == Step(c, Raised(GameError(AlreadyStarted)))
    ensures info.chatId in c.games && !c.games[info.chatId].started ==> r == Step(c, Returned(Nothing))
  {
    match GameAt(c, info.chatId)
    case None => Step(c, Raised(KeyError))
    case Some(g) =>
      var s := StartGame(g, None, dice);
      assert s.state == g && c.games[info.chatId := g] == c.games;
      match s.outcome
      case Raised(e) => Step(c.(games := c.games[info.chatId := s.state]), Raised(e))
      case Returned(_) => Step(c.(games := c.games[info.chatId := s.state]), Returned(Nothing))
  }

  /** `/sair`: removes the sender from the group's game, unless the sender
      is outside a group, the group has no game, or the sender is not in it
      by `__contains__`. */
  function Sair(c: Coordinator, info: Info): Step<Coordinator, Reply> {
    var refused := Step(c, Returned(Notify(info.chatId, NotInGame, None)));
    if !InGroup(info) then refused
    else match GameAt(c, info.chatId)
      case None => refused
      case Some(g) =>
        if !Contains(g, info.userId) then refused
        else match RmvPlayer(g, info.userId)
          case Raised(e) => Step(c, Raised(e))
          case Returned(h) => Step(c.(games := c.games[info.chatId := h]), Returned(Notify(info.chatId, LeftGame, None)))
  }

  /** As `__contains__` never finds anybody, `/sair` always refuses and
      nobody ever leaves a game. */
  lemma SairNeverRemoves(c: Coordinator, info: Info)
    ensures Sair(c, info) == Step(c, Returned(Notify(info.chatId, NotInGame, None)))
  {
    if InGroup(info) && info.chatId in c.games {
      ContainsNever(c.games[info.chatId], info.userId);
    }
  }

  /** The `entrar` button: records an invitation of the user to the chat
      the button was pressed in, replacing an earlier one. */
  function Entrar(c: Coordinator, info: Info): (r: Step<Coordinator, Reply>)
    ensures r.outcome == Returned(QueryAnswered)
    ensures r.state.games == c.games
    ensures info.userId in r.state.queue && r.state.queue[info.userId] == info.chatId
    ensures forall u | u != info.userId ::
      (u in r.state.queue <==> u in c.queue) && (u in c.queue ==> r.state.queue[u] == c.queue[u])
  {
    Step(c.(queue := c.queue[info.userId := info.chatId]), Returned(QueryAnswered))
  }

  /** Pressing the join button and then sending `/start` puts the user in
      the game of the group, with a score of zero. */
  lemma EntrarThenStart(c: Coordinator, group: Info, private: Info)
    requires group.chatId in c.games && private.userId == group.userId
    ensures var s := StartCommand(Entrar(c, group).state, private);
      && s.outcome == Returned(Notify(private.chatId, JoinedGame, None))
      && Get(s.state.games[group.chatId].roster, group.userId) ==
           Some(NewPlayer(group.userId, private.chatId, Some(private.fullName)))
      && group.userId !in s.state.queue
  {
  }

  /** The message of the `GameError` for other button data. */
  const BadAnswer: string := "Received data is neither `True` nor `False`"

  /** The `objeto` buttons: `True` accepts the photo under review, `False`
      asks for the next one, and other data raises `GameError`. A failure
      of either step propagates, with the game left as the step left it. */
  function Objeto(c: Coordinator, info: Info, data: string): (r: Step<Coordinator, Reply>)
    ensures r.state.queue == c.queue && r.state.games.Keys == c.games.Keys
    ensures info.chatId !in c.games ==> r == Step(c, Raised(KeyError))
    ensures info.chatId in c.games && data != "True" && data != "False" ==>
      r == Step(c, Raised(GameError(BadAnswer)))
    ensures info.chatId in c.games && data == "True" ==>
      (r.outcome.Returned? <==> c.games[info.chatId].ext.current.Some?)
    ensures info.chatId in c.games && data == "True" && r.outcome.Raised? ==>
      r == Step(c, Raised(AttributeError))
    ensures info.chatId in c.games && data == "True" && r.outcome.Returned? ==>
      var g := c.games[info.chatId];
      var u := g.ext.current.value.submitter;
      && r.state.games == c.games[info.chatId := AcceptPhoto(g).value]
      && (Get(g.roster, u).Some? ==>
            Get(r.state.games[info.chatId].roster, u).value.score == Get(g.roster, u).value.score + 1)
    ensures info.chatId in c.games && data == "False" ==>
      (r.outcome.Returned? <==> AskPhoto(c.games[info.chatId]).outcome.Returned?)
      && r.state.games == c.games[info.chatId := AskPhoto(c.games[info.chatId]).state]
    ensures r.outcome.Returned? ==> r.outcome.value == QueryAnswered
  {
    match GameAt(c, info.chatId)
    case None => Step(c, Raised(KeyError))
    case Some(g) =>
      if data == "True" then
        match AcceptPhoto(g)
        case Raised(e) => Step(c, Raised(e))
        case Returned(h) => Step(c.(games := c.games[info.chatId := h]), Returned(QueryAnswered))
      else if data == "False" then
        var s := RejectPhoto(g);
        var c1 := c.(games := c.games[info.chatId := s.state]);
        match s.outcome
        case Raised(e) => Step(c1, Raised(e))
        case Returned(_) => Step(c1, Returned(QueryAnswered))
      else Step(c, Raised(GameError(BadAnswer)))
  }

  /** The updates the bot handles. */
  datatype Command =
    | StartCmd(info: Info)
    | JogarCmd(info: Info)
    | IniciarCmd(info: Info)
    | SairCmd(info: Info)
    | EntrarCmd(info: Info)
    | ObjetoCmd(info: Info, data: string)

  /** One update through its handler. */
  function Handle(c: Coordinator, cmd: Command, dice: Dice): Step<Coordinator, Reply> {
    match cmd
    case StartCmd(info) => StartCommand(c, info)
    case JogarCmd(info) => Jogar(c, info, dice)
    case IniciarCmd(info) => Iniciar(c, info, dice)
    case SairCmd(info) => Sair(c, info)
    case EntrarCmd(info) => Entrar(c, info)
    case ObjetoCmd(info, data) => Objeto(c, info, data)
  }

  /** A run of updates. The dispatcher carries on after a handler raises,
      with whatever the handler changed before raising. */
  function Run(c: Coordinator, cmds: seq<Command>, dice: Dice): Coordinator
    decreases |cmds|
  {
    if |cmds| == 0 then c else Run(Handle(c, cmds[0], dice).state, cmds[1..], dice)
  }

  /** Every game is dormant: never started, no deques, no master. */
  predicate AllDormant(c: Coordinator) {
    forall id | id in c.games :: Dormant(c.games[id])
  }

  /** Each handler keeps every game dormant. */
  lemma HandleKeepsDormant(c: Coordinator, cmd: Command, dice: Dice)
    requires AllDormant(c)
    ensures AllDormant(Handle(c, cmd, dice).state)
  {
    match cmd
    case SairCmd(info) => SairNeverRemoves(c, info);
    case ObjetoCmd(info, data) =>
      if info.chatId in c.games {
        DormantReviewFails(c.games[info.chatId], Submission("", 0));
      }
    case _ =>
  }

  /** No sequence of updates ever starts a game: `/jogar` and `/iniciar`
      only ever call `start` without its argument. */
  lemma {:induction false} NoGameEverStarts(c: Coordinator, cmds: seq<Command>, dice: Dice)
    requires AllDormant(c)
    ensures AllDormant(Run(c, cmds, dice))
    ensures forall id | id in Run(c, cmds, dice).games :: !Run(c, cmds, dice).games[id].started
    decreases |cmds|
  {
    if |cmds| > 0 {
      HandleKeepsDormant(c, cmds[0], dice);
      NoGameEverStarts(Handle(c, cmds[0], dice).state, cmds[1..], dice);
    }
  }

  /** Hence, from a fresh bot, every `objeto` button press raises: there is
      never a photo under review nor a deque to take one from. */
  lemma ObjetoAlwaysFails(cmds: seq<Command>, dice: Dice, info: Info, data: string)
    ensures Objeto(Run(Fresh, cmds, dice), info, data).outcome.Raised?
  {
    NoGameEverStarts(Fresh, cmds, dice);
    var c := Run(Fresh, cmds, dice);
    if info.chatId in c.games {
      DormantReviewFails(c.games[info.chatId], Submission("", 0));
    }
  }
}

=== FILE: gugugame.dfy ===
/** `GuguGame` (archive/gugubot/botdogugubot.py): the photo game on top of
    `Game`. Once started it keeps three deques: the order in which players
    act as master (the judge of the photos), the shuffled objects, and the
    photos waiting for review. A deque is a sequence whose index 0 is its
    left end; `pop` takes from the right and `appendleft` adds on the left,
    so the photo deque is first in, first out. */
module GuguGame {
  import opened Exceptions
  import opened Dicts
  import opened Telegram
  import opened Game

  /** A `PhotoAnswer`: the photo and the user id of the player who sent it. */
  datatype Submission = Submission(photo: string, submitter: int)

  /** The deques `start` creates. */
  datatype Queues = Queues(masters: seq<Player>, objects: seq<string>, photos: seq<Submission>)

  /** The attributes `GuguGame` adds to `Game`: `obj` (Python's
      `self.object`) and `master` start as `None`; the deques and
      `photo_answer` do not exist until `start` and `ask_photo` create them. */
  datatype Extra = Extra(obj: Option<string>, master: Option<Player>, queues: Option<Queues>, current: Option<Submission>)

  type Gugu = Game<Extra>

  /** The outcome of the random choices `start` makes: the shuffle of the
      players and the shuffled object list. */
  datatype Dice = Dice(shufflePlayers: seq<Player> -> seq<Player>, objects: seq<string>)

  /** `GuguGame(bot, chat_id)`. */
  function NewGugu(chatId: int): (g: Gugu)
    ensures g.chatId == chatId && |g.roster| == 0 && Dormant(g)
  {
    NewGame(chatId, Extra(None, None, None, None))
  }

  /** Not started, with no deques, no master and no photo under review: the
      state of a game `start` has never completed on. */
  predicate Dormant(g: Gugu) {
    !g.started && g.ext.master.None? && g.ext.queues.None? && g.ext.current.None?
  }

  /** The body of `GuguGame.start(self, info)`. Called without `info` it
      raises `TypeError` before doing anything. Otherwise it sets up the
      deques and announces the game in the group, replying to the command. */
  function StartBody(info: Option<Info>, dice: Dice): Gugu -> Step<Gugu, Reply> {
    (g: Gugu) =>
      match info
      case None => Step(g, Raised(TypeError))
      case Some(i) =>
        var q := Queues(dice.shufflePlayers(Players(g)), dice.objects, []);
        Step(g.(ext := g.ext.(queues := Some(q))), Returned(Notify(g.chatId, GameCalled, Some(i.messageId))))
  }

  /** `game.start(...)`, decorated by `Game.start`. Called without `info`, as
      `/jogar` and `/iniciar` do, the `TypeError` is swallowed and the game
      is left exactly as it was: not started. */
  function StartGame(g: Gugu, info: Option<Info>, dice: Dice): (r: Step<Gugu, Option<Reply>>)
    ensures g.started ==> r == Step(g, Raised(GameError(AlreadyStarted)))
    ensures !g.started && info.None? ==> r == Step(g, Returned(None))
    ensures !g.started && info.Some? ==>
      && r.state.started && r.state.roster == g.roster && r.state.chatId == g.chatId
      && r.state.ext == g.ext.(queues := Some(Queues(dice.shufflePlayers(Players(g)), dice.objects, [])))
      && r.outcome == Returned(Some(Notify(g.chatId, GameCalled, Some(info.value.messageId))))
  {
    assert Players(g.(started := true)) == Players(g);
    Start(g, StartBody(info, dice))
  }

  /** The announcement the finish body sends; `str(winner)` is the winner's
      full name. */
  function WinnerText(name: string): string {
    name + " venceu o Domingo Legal!"
  }

  /** The body of `GuguGame.finish(self, info)`: announces the winner. With
      no players `max` raises `ValueError`; a winner without a full name
      cannot be formatted and raises `TypeError`. The announcement is sent,
      not returned; the model reports it as the body's result. */
  function FinishBody(info: Option<Info>): Gugu -> Step<Gugu, Reply> {
    (g: Gugu) =>
      match info
      case None => Step(g, Raised(TypeError))
      case Some(_) =>
        match Winner(g)
        case Raised(e) => Step(g, Raised(e))
        case Returned(p) =>
          match PlayerText(p)
          case Raised(e) => Step(g, Raised(e))
          case Returned(name) => Step(g, Returned(Text(g.chatId, WinnerText(name), None)))
  }

  /** `game.finish(info)`, decorated by `Game.finish`. Every failure of the
      body is swallowed and leaves the game started. */
  function FinishGame(g: Gugu, info: Option<Info>): (r: Step<Gugu, Option<Reply>>)
    ensures !g.started ==> r == Step(g, Raised(GameError(AlreadyFinished)))
    ensures g.started && (info.None? || |g.roster| == 0) ==> r == Step(g, Returned(None))
    ensures g.started && info.Some? && Winner(g).Returned? && Winner(g).value.fullName.Some? ==>
      r == Step(g.(started := false),
        Returned(Some(Text(g.chatId, WinnerText(Winner(g).value.fullName.value), None))))
    ensures g.started && info.Some? && Winner(g).Returned? && Winner(g).value.fullName.None? ==>
      r == Step(g, Returned(None))
  {
    Finish(g, FinishBody(info))
  }

  /** A started game with players, all named, is finished by `finish`, and
      can then be started again. */
  lemma FinishThenRestart(g: Gugu, info: Info, dice: Dice)
    requires g.started && |g.roster| > 0
    requires forall i :: 0 <= i < |g.roster| ==> g.roster[i].1.fullName.Some?
    ensures var f := FinishGame(g, Some(info));
      !f.state.started && f.outcome.Returned? && f.outcome.value.Some?
      && StartGame(f.state, Some(info), dice).state.started
  {
    var w := Winner(g);
    var k :| 0 <= k < |g.roster| && w.value == g.roster[k].1;
  }

  /** `next_master()`: pops the right end of the master deque. */
  function NextMaster(g: Gugu): (r: Step<Gugu, Player>)
    ensures g.ext.queues.None? ==> r == Step(g, Raised(AttributeError))
    ensures g.ext.queues.Some? && |g.ext.queues.value.masters| == 0 ==> r == Step(g, Raised(IndexError))
    ensures g.ext.queues.Some? && |g.ext.queues.value.masters| > 0 ==>
      var ms := g.ext.queues.value.masters;
      && r.outcome == Returned(ms[|ms| - 1])
      && r.state.ext.queues.Some?
      && r.state.ext.queues.value.masters + [ms[|ms| - 1]] == ms
      && r.state == g.(ext := g.ext.(queues := Some(g.ext.queues.value.(masters := r.state.ext.queues.value.masters))))
  {
    match g.ext.queues
    case None => Step(g, Raised(AttributeError))
    case Some(q) =>
      if |q.masters| == 0 then Step(g, Raised(IndexError))
      else
        var n := |q.masters| - 1;
        assert q.masters[..n] + [q.masters[n]] == q.masters;
        Step(g.(ext := g.ext.(queues := Some(q.(masters := q.masters[..n])))), Returned(q.masters[n]))
  }

  /** The photos in the order `ask_photo` will serve them: the right end of
      the deque first. */
  function Pending(photos: seq<Submission>): (r: seq<Submission>)
    ensures |r| == |photos|
    ensures forall i :: 0 <= i < |r| ==> r[i] == photos[|photos| - 1 - i]
    decreases |photos|
  {
    if |photos| == 0 then []
    else
      var rest := Pending(photos[..|photos| - 1]);
      var r := [photos[|photos| - 1]] + rest;
      assert forall i :: 0 <= i < |rest| ==> r[i + 1] == rest[i];
      r
  }

  /** `appendleft` puts a photo at the back of the line. */
  lemma {:induction false} PendingAppendLeft(s: Submission, photos: seq<Submission>)
    ensures Pending([s] + photos) == Pending(photos) + [s]
    decreases |photos|
  {
    if |photos| == 0 {
      assert [s] + photos == [s];
      assert Pending([s]) == [s] + Pending([]);
    } else {
      var n := |photos| - 1;
      var sp := [s] + photos;
      assert sp[|sp| - 1] == photos[n];
      assert sp[..|sp| - 1] == [s] + photos[..n];
      PendingAppendLeft(s, photos[..n]);
    }
  }

  /** `add_photo(photo)`: `appendleft` on the photo deque, which exists only
      once the game has started. */
  function AddPhoto(g: Gugu, s: Submission): (r: Outcome<Gugu>)
    ensures r.Raised? <==> g.ext.queues.None?
    ensures r.Raised? ==> r.error == AttributeError
    ensures r.Returned? ==>
      && r.value.ext.queues.Some?
      && Pending(r.value.ext.queues.value.photos) == Pending(g.ext.queues.value.photos) + [s]
      && r.value == g.(ext := g.ext.(queues := Some(g.ext.queues.value.(photos := r.value.ext.queues.value.photos))))
  {
    match g.ext.queues
    case None => Raised(AttributeError)
    case Some(q) =>
      PendingAppendLeft(s, q.photos);
      Returned(g.(ext := g.ext.(queues := Some(q.(photos := [s] + q.photos)))))
  }

  /** `ask_photo()`: pops the oldest photo into `photo_answer`, then sends it
      to the master's private chat for review. The pop happens first, so a
      game without a master loses the photo and raises `AttributeError`. */
  function AskPhoto(g: Gugu): (r: Step<Gugu, Reply>)
    ensures g.ext.queues.None? ==> r == Step(g, Raised(AttributeError))
    ensures g.ext.queues.Some? && |g.ext.queues.value.photos| == 0 ==> r == Step(g, Raised(IndexError))
    ensures g.ext.queues.Some? && |g.ext.queues.value.photos| > 0 ==>
      var line := Pending(g.ext.queues.value.photos);
      && r.state.ext.queues.Some?
      && r.state.ext.current == Some(line[0])
      && Pending(r.state.ext.queues.value.photos) == line[1..]
      && r.state.roster == g.roster && r.state.started == g.started && r.state.ext.master == g.ext.master
      && r.state.chatId == g.chatId && r.state.ext.obj == g.ext.obj
      && r.state.ext.queues.value.masters == g.ext.queues.value.masters
      && r.state.ext.queues.value.objects == g.ext.queues.value.objects
      && r.outcome == (if g.ext.master.None? then Raised(AttributeError)
                       else Returned(Notify(g.ext.master.value.chatId, ReviewPhoto, None)))
  {
    match g.ext.queues
    case None => Step(g, Raised(AttributeError))
    case Some(q) =>
      if |q.photos| == 0 then Step(g, Raised(IndexError))
      else
        var n := |q.photos| - 1;
        var oldest := q.photos[n];
        assert Pending(q.photos) == [oldest] + Pending(q.photos[..n]);
        var h := g.(ext := g.ext.(queues := Some(q.(photos := q.photos[..n])), current := Some(oldest)));
        match g.ext.master
        case None => Step(h, Raised(AttributeError))
        case Some(m) => Step(h, Returned(Notify(m.chatId, ReviewPhoto, None)))
  }

  /** `accept_photo()`: one point to the player who sent the photo under
      review. Before any `ask_photo` there is no such photo. */
  function AcceptPhoto(g: Gugu): (r: Outcome<Gugu>)
    ensures r.Raised? <==> g.ext.current.None?
    ensures r.Raised? ==> r.error == AttributeError
    ensures r.Returned? ==>
      var u := g.ext.current.value.submitter;
      && r.value.started == g.started && r.value.ext == g.ext && r.value.chatId == g.chatId
      && Keys(r.value.roster) == Keys(g.roster)
      && (forall v :: v != u ==> Get(r.value.roster, v) == Get(g.roster, v))
      && (Get(g.roster, u).Some? ==> Get(r.value.roster, u) == Some(Get(g.roster, u).value.(score := Get(g.roster, u).value.score + 1)))
  {
    match g.ext.current
    case None => Raised(AttributeError)
    case Some(s) =>
      match Get(g.roster, s.submitter)
      case None => Returned(g)
      case Some(p) => Returned(g.(roster := Set(g.roster, s.submitter, p.(score := p.score + 1))))
  }

  /** `reject_photo()`: asks for the next photo. */
  function RejectPhoto(g: Gugu): Step<Gugu, Reply> {
    AskPhoto(g)
  }

  /** Rejecting the photo under review puts the next one in the line under
      review; the rejected one is not put back. */
  lemma RejectServesNext(g: Gugu)
    requires g.ext.queues.Some? && |g.ext.queues.value.photos| > 0
    ensures var line := Pending(g.ext.queues.value.photos);
      var r := RejectPhoto(g).state;
      r.ext.current == Some(line[0]) && Pending(r.ext.queues.value.photos) == line[1..]
  {
  }

  /** Photos are reviewed in the order they were sent: three photos added
      one after another to an empty line come back out first to last. */
  lemma PhotosFirstInFirstOut(g: Gugu, s1: Submission, s2: Submission, s3: Submission)
    requires g.ext.queues.Some? && |g.ext.queues.value.photos| == 0
    ensures var a := AddPhoto(g, s1).value;
      var b := AddPhoto(a, s2).value;
      var c := AddPhoto(b, s3).value;
      var x := AskPhoto(c).state;
      var y := AskPhoto(x).state;
      var z := AskPhoto(y).state;
      x.ext.current == Some(s1) && y.ext.current == Some(s2) && z.ext.current == Some(s3)
      && |z.ext.queues.value.photos| == 0
  {
    var a := AddPhoto(g, s1).value;
    var b := AddPhoto(a, s2).value;
    var c := AddPhoto(b, s3).value;
    assert Pending(c.ext.queues.value.photos) == [s1, s2, s3];
    var x := AskPhoto(c).state;
    assert Pending(x.ext.queues.value.photos) == [s2, s3];
    var y := AskPhoto(x).state;
    assert Pending(y.ext.queues.value.photos) == [s3];
  }

  /** In a dormant game every review step fails: there is no deque to take
      from and no photo under review, and nothing changes. */
  lemma DormantReviewFails(g: Gugu, s: Submission)
    requires Dormant(g)
    ensures AddPhoto(g, s) == Raised(AttributeError)
    ensures AskPhoto(g) == Step(g, Raised(AttributeError))
    ensures AcceptPhoto(g) == Raised(AttributeError)
    ensures NextMaster(g) == Step(g, Raised(AttributeError))
  {
  }
}

=== FILE: layer.dfy ===
/** `Layer` (telebot/layer/layer.py): wrappers stacked around a callback.
    A callback keeps its wrappers in a `layer` list; `Layer.stack` wraps the
    callback in them left to right, so the first one ends up innermost. A
    callback is any value of a type `F` and a wrapper any `F -> F`. */
module Layer {
  import opened Exceptions
  import opened Telegram

  /** `Layer.stack(callback, layers)`: wrap with the head, recurse on the
      tail. */
  function Stack<F>(cb: F, layers: seq<F -> F>): F
    decreases |layers|
  {
    if |layers| == 0 then cb else Stack(layers[0](cb), layers[1..])
  }

  /** The reading `ln(...l2(l1(cb)))`: the last wrapper outermost. */
  function Nest<F>(cb: F, layers: seq<F -> F>): F
    decreases |layers|
  {
    if |layers| == 0 then cb else layers[|layers| - 1](Nest(cb, layers[..|layers| - 1]))
  }

  /** Stacking a concatenation is stacking the second part on the result of
      stacking the first; with nothing to stack the callback is returned
      as is. */
  lemma {:induction false} StackConcat<F>(cb: F, a: seq<F -> F>, b: seq<F -> F>)
    ensures Stack(cb, []) == cb
    ensures Stack(cb, a + b) == Stack(Stack(cb, a), b)
    decreases |a|
  {
    if |a| == 0 {
      assert a + b == b;
    } else {
      assert (a + b)[0] == a[0];
      assert (a + b)[1..] == a[1..] + b;
      StackConcat(a[0](cb), a[1..], b);
    }
  }

  /** `Layer.stack` wraps with the first layer innermost and the last
      outermost. */
  lemma {:induction false} StackIsNest<F>(cb: F, layers: seq<F -> F>)
    ensures Stack(cb, layers) == Nest(cb, layers)
    decreases |layers|
  {
    if |layers| > 0 {
      var n := |layers| - 1;
      var init := layers[..n];
      assert layers == init + [layers[n]];
      StackConcat(cb, init, [layers[n]]);
      assert Stack(Stack(cb, init), [layers[n]]) == layers[n](Stack(cb, init)) by {
        assert [layers[n]][1..] == [];
      }
      StackIsNest(cb, init);
    }
  }

  /** A callback together with its `layer` attribute, absent until the first
      layer is attached. */
  datatype Layered<!F> = Layered(call: F, layers: Option<seq<F -> F>>)

  /** `Layer(decor)(obj)`: appends the wrapper to the end of the callback's
      `layer` list, creating the list on first use; the callback itself is
      returned unwrapped. */
  function Attach<F>(layer: F -> F, cb: Layered<F>): (r: Layered<F>)
    ensures r.call == cb.call && r.layers.Some?
    ensures var before := if cb.layers.Some? then cb.layers.value else [];
      |r.layers.value| == |before| + 1 && r.layers.value[..|before|] == before && r.layers.value[|before|] == layer
  {
    match cb.layers
    case Some(ls) => cb.(layers := Some(ls + [layer]))
    case None => cb.(layers := Some([layer]))
  }

  /** `Layer.apply(callback)`: stacks the callback's own layer list. A
      callback without one raises `AttributeError`. */
  function Apply<F>(cb: Layered<F>): (r: Outcome<F>)
    ensures cb.layers.None? ==> r == Raised(AttributeError)
    ensures cb.layers.Some? ==> r == Returned(Nest(cb.call, cb.layers.value))
  {
    match cb.layers
    case None => Raised(AttributeError)
    case Some(ls) =>
      StackIsNest(cb.call, ls);
      Returned(Stack(cb.call, ls))
  }

  /** Decorating a callback with layers, the one written nearest to the
      function first. */
  function AttachAll<F>(cb: Layered<F>, ls: seq<F -> F>): Layered<F>
    decreases |ls|
  {
    if |ls| == 0 then cb else AttachAll(Attach(ls[0], cb), ls[1..])
  }

  /** Decorating a plain callback with layers and applying it wraps the
      callback in exactly those layers, the one applied first innermost. */
  lemma {:induction false} DecoratedThenApplied<F>(cb: F, ls: seq<F -> F>)
    requires |ls| > 0
    ensures Apply(AttachAll(Layered(cb, None), ls)) == Returned(Nest(cb, ls))
  {
    AttachAllAppends(Layered(cb, Some([ls[0]])), ls[1..]);
    assert [ls[0]] + ls[1..] == ls;
  }

  lemma {:induction false} AttachAllAppends<F>(cb: Layered<F>, ls: seq<F -> F>)
    requires cb.layers.Some?
    ensures AttachAll(cb, ls) == Layered(cb.call, Some(cb.layers.value + ls))
    decreases |ls|
  {
    if |ls| == 0 {
      assert cb.layers.value + ls == cb.layers.value;
    } else {
      AttachAllAppends(Attach(ls[0], cb), ls[1..]);
      assert cb.layers.value + [ls[0]] + ls[1..] == cb.layers.value + ls;
    }
  }

  /** The `with_info` layer: the wrapped callback receives exactly one
      argument, the info built from whatever arguments came in. */
  function WithInfo<B, R>(cb: (B, Args) -> R): (B, Args) -> R {
    (b, args) => cb(b, Single(GetInfo(args)))
  }

  /** Nesting `with_info` in `with_info` changes nothing, because the inner
      one is handed a single argument and passes it through. */
  lemma WithInfoNests<B, R>(cb: (B, Args) -> R, b: B, args: Args)
    ensures WithInfo(cb)(b, args) == cb(b, Single(GetInfo(args)))
    ensures WithInfo(WithInfo(cb))(b, args) == WithInfo(cb)(b, args)
  {
    var info := GetInfo(args);
    assert WithInfo(WithInfo(cb))(b, args) == WithInfo(cb)(b, Single(info));
    assert WithInfo(cb)(b, Single(info)) == cb(b, Single(GetInfo(Single(info))));
  }
}

=== FILE: proxy.dfy ===
/** `Proxy` (telebot/proxy/proxy.py): named boolean gates attached to a
    callback. The callback keeps its gates in a `proxy` dict from gate name
    to predicate `func(bot, info) -> bool`; `Proxy.apply` runs the callback
    only when every gate of that dict holds. The bot the predicates look at
    is a type parameter. A predicate is a Python call on that bot: it may
    change it (`lock_start` goes through `get_chat`, which creates missing
    chats) and it may raise, so it answers with a `Step`. */
module Proxy {
  import opened Exceptions
  import opened Dicts
  import opened Telegram
  import opened Store
  import opened ChatState

  /** A gate predicate `func(bot, info)`. */
  type Test<!B> = (B, Info) -> Step<B, bool>

  /** A `Proxy` object: a predicate with the name it is filed under. */
  datatype Gate<!B> = Gate(name: string, test: Test<B>)

  /** A callback's `proxy` attribute. */
  type Table<!B> = Dict<string, Test<B>>

  /** A callback together with its `proxy` attribute, absent until the first
      gate is attached. The callback runs on the bot and may change it. */
  datatype Guarded<!B, !A, R> = Guarded(call: (B, A) -> Step<B, R>, proxy: Option<Table<B>>)

  /** The predicate answers without touching the bot and without raising. */
  predicate PureAt<B(==)>(test: Test<B>, b: B, info: Info) {
    test(b, info).state == b && test(b, info).outcome.Returned?
  }

  /** The predicate answers `True`. */
  predicate Passes<B(==)>(test: Test<B>, b: B, info: Info) {
    test(b, info).outcome == Returned(true)
  }

  /** `not x` on an answer; an exception passes through. */
  function Not(o: Outcome<bool>): Outcome<bool> {
    match o
    case Returned(v) => Returned(!v)
    case Raised(e) => Raised(e)
  }

  /** `~gate` (also `gate.invert`): a new gate under the same name that
      calls the original predicate and negates its answer. The original is
      a value and is left as it was. */
  function Invert<B(==,!new)>(g: Gate<B>): (r: Gate<B>)
    ensures r.name == g.name
    ensures forall b, info :: r.test(b, info).state == g.test(b, info).state
    ensures forall b, info :: r.test(b, info).outcome.Raised? <==> g.test(b, info).outcome.Raised?
    ensures forall b, info :: Passes(r.test, b, info) <==> g.test(b, info).outcome == Returned(false)
  {
    Gate(g.name, (b, info) => var s := g.test(b, info); Step(s.state, Not(s.outcome)))
  }

  /** `-gate` (also `gate.cancel`): a new gate under the same name that
      always answers `True` without calling the original. */
  function Cancel<B(==,!new)>(g: Gate<B>): (r: Gate<B>)
    ensures r.name == g.name
    ensures forall b, info :: PureAt(r.test, b, info) && Passes(r.test, b, info)
  {
    Gate(g.name, (b, info) => Step(b, Returned(true)))
  }

  /** Inverting twice gives back the original predicate, and cancelling an
      inverted gate is the same as cancelling the gate. */
  lemma InvertInvolution<B(!new)>(g: Gate<B>, b: B, info: Info)
    ensures Invert(Invert(g)).name == g.name
    ensures Invert(Invert(g)).test(b, info) == g.test(b, info)
    ensures Cancel(Invert(g)).test(b, info) == Cancel(g).test(b, info)
  {
    var s := g.test(b, info);
    assert Not(Not(s.outcome)) == s.outcome;
  }

  /** Every predicate of the entries answers without touching the bot and
      without raising. */
  predicate AllPureAt<B(==)>(entries: seq<(string, Test<B>)>, b: B, info: Info) {
    forall i :: 0 <= i < |entries| ==> PureAt(entries[i].1, b, info)
  }

  /** `all(pred(bot, info) for pred in entries)`: the predicates run left to
      right on the same bot, each seeing what the earlier ones changed; the
      first `False` stops the scan and an exception propagates. */
  function AllPass<B(==)>(entries: seq<(string, Test<B>)>, b: B, info: Info): (r: Step<B, bool>)
    ensures |entries| == 0 ==> r == Step(b, Returned(true))
    ensures |entries| > 0 && !Passes(entries[0].1, b, info) ==>
      r.state == entries[0].1(b, info).state && r.outcome == (if entries[0].1(b, info).outcome.Raised? then entries[0].1(b, info).outcome else Returned(false))
    ensures AllPureAt(entries, b, info) ==>
      r == Step(b, Returned(forall i :: 0 <= i < |entries| ==> Passes(entries[i].1, b, info)))
    decreases |entries|
  {
    if |entries| == 0 then Step(b, Returned(true))
    else
      var s := entries[0].1(b, info);
      match s.outcome
      case Raised(e) => Step(s.state, Raised(e))
      case Returned(ok) =>
        if !ok then Step(s.state, Returned(false))
        else
          var rest := AllPass(entries[1..], s.state, info);
          assert AllPureAt(entries, b, info) ==> AllPureAt(entries[1..], b, info) && s.state == b by {
            if AllPureAt(entries, b, info) {
              forall i | 0 <= i < |entries[1..]| ensures PureAt(entries[1..][i].1, b, info) {
                assert entries[1..][i] == entries[i + 1];
              }
            }
          }
          assert AllPureAt(entries, b, info) ==>
            ((forall i :: 0 <= i < |entries[1..]| ==> Passes(entries[1..][i].1, b, info)) <==>
             (forall i :: 0 <= i < |entries| ==> Passes(entries[i].1, b, info))) by {
            assert forall i :: 1 <= i < |entries| ==> entries[i] == entries[1..][i - 1];
          }
          rest
  }

  /** Every predicate filed in the table answers without touching the bot
      and without raising. */
  predicate TablePure<B(==)>(table: Table<B>, b: B, info: Info) {
    forall name :: name in Keys(table) ==> Get(table, name).Some? && PureAt(Get(table, name).value, b, info)
  }

  /** `Proxy.allow(bot, info, proxy)`: `all` over the table in insertion
      order. With no gate attached it holds vacuously; when the predicates
      neither change the bot nor raise, it holds exactly when the predicate
      filed under every name answers `True`. */
  function Allow<B(==)>(b: B, info: Info, table: Table<B>): (r: Step<B, bool>)
    ensures |table| == 0 ==> r == Step(b, Returned(true))
    ensures TablePure(table, b, info) ==>
      r == Step(b, Returned(forall name :: name in Keys(table) ==> Get(table, name).Some? && Passes(Get(table, name).value, b, info)))
  {
    PureTableAsEntries(table, b, info);
    AllPass(table, b, info)
  }

  /** Read in insertion order, a table of predicates that neither change
      the bot nor raise is a list of such predicates, and every one of them
      answers `True` exactly when the predicate filed under every name
      does. */
  lemma PureTableAsEntries<B>(table: Table<B>, b: B, info: Info)
    ensures TablePure(table, b, info) ==> AllPureAt(table, b, info)
    ensures TablePure(table, b, info) ==>
      ((forall i :: 0 <= i < |table| ==> Passes(table[i].1, b, info)) <==>
       (forall name :: name in Keys(table) ==> Get(table, name).Some? && Passes(Get(table, name).value, b, info)))
  {
    if TablePure(table, b, info) {
      forall i | 0 <= i < |table| ensures PureAt(table[i].1, b, info) {
        assert Keys(table)[i] == table[i].0;
        assert Get(table, table[i].0) == Some(table[i].1);
      }
      if forall i :: 0 <= i < |table| ==> Passes(table[i].1, b, info) {
        forall name | name in Keys(table)
          ensures Get(table, name).Some? && Passes(Get(table, name).value, b, info)
        {
          var i :| 0 <= i < |table| && Keys(table)[i] == name;
          assert Get(table, name) == Some(table[i].1);
        }
      } else {
        var i :| 0 <= i < |table| && !Passes(table[i].1, b, info);
        assert Keys(table)[i] == table[i].0;
        assert Get(table, table[i].0) == Some(table[i].1);
      }
    }
  }

  /** `gate(callback)`: files the predicate under the gate's name in the
      callback's `proxy` dict, creating the dict on first use. A gate of the
      same name is replaced; every other name keeps its predicate. */
  function Attach<B, A, R>(g: Gate<B>, cb: Guarded<B, A, R>): (r: Guarded<B, A, R>)
    ensures r.call == cb.call && r.proxy.Some?
    ensures Get(r.proxy.value, g.name) == Some(g.test)
    ensures forall name :: name != g.name ==>
      Get(r.proxy.value, name) == if cb.proxy.Some? then Get(cb.proxy.value, name) else None
  {
    match cb.proxy
    case Some(table) => cb.(proxy := Some(Set(table, g.name, g.test)))
    case None => cb.(proxy := Some(Set([], g.name, g.test)))
  }

  /** A callback's answer as the applied callback hands it on: a value
      becomes `Some`, an exception passes through. */
  function Lift<R>(o: Outcome<R>): Outcome<Option<R>> {
    match o
    case Returned(v) => Returned(Some(v))
    case Raised(e) => Raised(e)
  }

  /** The callback `Proxy.apply(callback)` returns, called with `(bot, *args)`:
      it computes the info, then runs the callback on the bot `allow` leaves
      behind when `allow` holds, and returns `None` without running it
      otherwise. A callback without a `proxy` attribute raises
      `AttributeError`, and an exception of a gate propagates. */
  function ApplyCall<B(==), A, R(==)>(cb: Guarded<B, A, R>, getInfo: A -> Info, b: B, args: A): (r: Step<B, Option<R>>)
    ensures cb.proxy.None? ==> r == Step(b, Raised(AttributeError))
    ensures cb.proxy.Some? ==>
      var s := Allow(b, getInfo(args), cb.proxy.value);
      && (s.outcome.Raised? ==> r == Step(s.state, Raised(s.outcome.error)))
      && (r.outcome == Returned(None) <==> s.outcome == Returned(false))
      && (s.outcome == Returned(false) ==> r.state == s.state)
      && (s.outcome == Returned(true) ==>
            r.state == cb.call(s.state, args).state && r.outcome == Lift(cb.call(s.state, args).outcome))
  {
    var info := getInfo(args);
    match cb.proxy
    case None => Step(b, Raised(AttributeError))
    case Some(table) =>
      var s := Allow(b, info, table);
      match s.outcome
      case Raised(e) => Step(s.state, Raised(e))
      case Returned(ok) =>
        if ok then
          var c := cb.call(s.state, args);
          Step(c.state, Lift(c.outcome))
        else Step(s.state, Returned(None))
  }

  /** Filing a predicate under a name, among predicates that neither change
      the bot nor raise: the table allows exactly when the table without
      that name allows and the new predicate answers `True`. */
  lemma AllowAfterSet<B>(table: Table<B>, name: string, test: Test<B>, b: B, info: Info)
    requires TablePure(table, b, info) && PureAt(test, b, info)
    ensures Allow(b, info, Set(table, name, test)) ==
      Step(b, Returned(Allow(b, info, Remove(table, name)).outcome.value && Passes(test, b, info)))
  {
    var s := Set(table, name, test);
    var r := Remove(table, name);
    assert TablePure(s, b, info) by {
      forall k | k in Keys(s) ensures Get(s, k).Some? && PureAt(Get(s, k).value, b, info) {
        if k != name { assert Get(s, k) == Get(table, k); }
      }
    }
    assert TablePure(r, b, info) by {
      forall k | k in Keys(r) ensures Get(r, k).Some? && PureAt(Get(r, k).value, b, info) {
        assert Get(r, k) == Get(table, k);
      }
    }
    if Allow(b, info, r).outcome.value && Passes(test, b, info) {
      AllowSetFromParts(table, name, test, b, info);
    }
    if Allow(b, info, s).outcome.value {
      AllowPartsFromSet(table, name, test, b, info);
    }
  }

  lemma AllowSetFromParts<B>(table: Table<B>, name: string, test: Test<B>, b: B, info: Info)
    requires TablePure(Set(table, name, test), b, info) && TablePure(Remove(table, name), b, info)
    requires Allow(b, info, Remove(table, name)).outcome == Returned(true) && Passes(test, b, info)
    ensures Allow(b, info, Set(table, name, test)).outcome == Returned(true)
  {
    var s := Set(table, name, test);
    var r := Remove(table, name);
    forall k | k in Keys(s)
      ensures Get(s, k).Some? && Passes(Get(s, k).value, b, info)
    {
      if k != name {
        assert Get(s, k) == Get(r, k);
      }
    }
  }

  lemma AllowPartsFromSet<B>(table: Table<B>, name: string, test: Test<B>, b: B, info: Info)
    requires TablePure(Set(table, name, test), b, info) && TablePure(Remove(table, name), b, info)
    requires Allow(b, info, Set(table, name, test)).outcome == Returned(true)
    ensures Allow(b, info, Remove(table, name)).outcome == Returned(true) && Passes(test, b, info)
  {
    var s := Set(table, name, test);
    var r := Remove(table, name);
    assert Get(s, name).Some?;
    forall k | k in Keys(r)
      ensures Get(r, k).Some? && Passes(Get(r, k).value, b, info)
    {
      assert Get(r, k) == Get(s, k);
    }
  }

  /** A cancelled gate never blocks: among predicates that neither change
      the bot nor raise, the callback runs exactly when the other gates
      hold, whatever the original predicate says. */
  lemma CancelledGateNeverBlocks<B(!new)>(table: Table<B>, g: Gate<B>, b: B, info: Info)
    requires TablePure(table, b, info)
    ensures Allow(b, info, Set(table, g.name, Cancel(g).test)) == Allow(b, info, Remove(table, g.name))
  {
    AllowAfterSet(table, g.name, Cancel(g).test, b, info);
    assert TablePure(Remove(table, g.name), b, info) by {
      forall k | k in Keys(Remove(table, g.name))
        ensures Get(Remove(table, g.name), k).Some? && PureAt(Get(Remove(table, g.name), k).value, b, info)
      {
        assert Get(Remove(table, g.name), k) == Get(table, k);
      }
    }
  }

  /** An inverted gate lets the callback run exactly when the other gates
      hold and the original predicate answers `False`. */
  lemma InvertedGateAllows<B(!new)>(table: Table<B>, g: Gate<B>, b: B, info: Info)
    requires TablePure(table, b, info) && PureAt(g.test, b, info)
    ensures Allow(b, info, Set(table, g.name, Invert(g).test)) ==
      Step(b, Returned(Allow(b, info, Remove(table, g.name)).outcome.value && !Passes(g.test, b, info)))
  {
    assert PureAt(Invert(g).test, b, info);
    AllowAfterSet(table, g.name, Invert(g).test, b, info);
  }

  /** Whether the store holds a started chat under `chatId`. A chat the store
      has not seen counts as not started, as the fresh chat `get_chat` would
      create is not started. */
  predicate StartedIn(d: Data, chatId: int) {
    match Chats(d)
    case Returned(table) => Get(table, chatId).Some? && Get(table, chatId).value.started
    case Raised(_) => false
  }

  /** `lock_start`: the gate named `start` whose predicate fetches the chat
      with `get_chat` (creating it when unseen) and answers whether it is
      started; an unreadable chat table raises. */
  function LockStart(): (g: Gate<Data>)
    ensures g.name == "start"
  {
    Gate("start", (d, info: Info) =>
      var s := GetChat(d, info.chatId);
      Step(s.state, match s.outcome
        case Returned(c) => Returned(c.started)
        case Raised(e) => Raised(e)))
  }

  /** The `lock_start` predicate answers whether the store holds a started
      chat under the id; it leaves a store that knows the chat as it was,
      files a fresh chat for an unseen id, and raises what reading the
      chat table raises. */
  lemma LockStartReadsChat(d: Data, info: Info)
    ensures Chats(d).Raised? ==> LockStart().test(d, info) == Step(d, Raised(Chats(d).error))
    ensures Chats(d).Returned? ==>
      var r := LockStart().test(d, info);
      && r.outcome == Returned(StartedIn(d, info.chatId))
      && (info.chatId in Keys(Chats(d).value) ==> r.state == d)
      && (info.chatId !in Keys(Chats(d).value) ==>
            Chats(r.state).Returned? && Get(Chats(r.state).value, info.chatId) == Some(NewChat(info.chatId)))
  {
    var s := GetChat(d, info.chatId);
    if Chats(d).Returned? && info.chatId !in Keys(Chats(d).value) {
      assert Get(Chats(d).value, info.chatId).None?;
    }
  }

  /** `lock_group`: the gate named `group` that holds in group and supergroup
      chats. */
  function LockGroup(): (g: Gate<Data>)
    ensures g.name == "group"
  {
    Gate("group", (d: Data, info: Info) => Step(d, Returned(info.chatType in {"group", "supergroup"})))
  }

  /** `lock_group` holds exactly in group and supergroup chats, whatever the
      bot's state. */
  lemma LockGroupOnlyGroups(d: Data, info: Info)
    ensures LockGroup().test(d, info) == Step(d, Returned(info.chatType == "group" || info.chatType == "supergroup"))
  {
  }
}

=== FILE: telegram.dfy ===
/** The shape of what the chat library hands to a handler, and of what a
    handler hands back. Only the fields the bots read are kept; the transport
    itself is not part of this model. */
module Telegram {
  import opened Exceptions

  /** A `MessageEntity`: a typed span of the message text. */
  datatype Entity = Entity(kind: string, offset: int, length: int)

  datatype Message = Message(messageId: int, text: string, entities: seq<Entity>)

  /** `update.effective_chat`: its id, its type (`private`, `group`,
      `supergroup`, `channel`), the username and the group title. */
  datatype ChatRef = ChatRef(id: int, kind: string, username: string, title: string)

  /** `update.effective_user`. */
  datatype User = User(id: int, fullName: string)

  /** The `(update, context)` pair the library passes to every handler. */
  datatype Update = Update(chat: ChatRef, user: User, message: Message)
  datatype Context = Context(error: Option<Exception>)

  /** The `info` dict built from an update. `Bot._get_info` fills the chat,
      message and error fields; the game bots also read the chat type, the
      user and the title. */
  datatype Info = Info(
    chatId: int,
    chatType: string,
    userId: int,
    fullName: string,
    title: string,
    username: string,
    message: Message,
    messageId: int,
    text: string,
    error: Option<Exception>)

  /** The positional arguments a wrapped handler receives: the raw pair from
      the library, or the single `info` dict an outer wrapper already built. */
  datatype Args = Raw(update: Update, context: Context) | Single(info: Info)

  /** `Bot._get_info(update, context)`: gathers the relevant fields of the
      update and the context into one record. */
  function ExtractInfo(update: Update, context: Context): (r: Info)
    ensures r.chatId == update.chat.id && r.username == update.chat.username
    ensures r.message == update.message
    ensures r.messageId == r.message.messageId && r.text == r.message.text
    ensures r.error == context.error
    ensures r.chatType == update.chat.kind && r.title == update.chat.title
    ensures r.userId == update.user.id && r.fullName == update.user.fullName
  {
    Info(
      update.chat.id, update.chat.kind, update.user.id, update.user.fullName,
      update.chat.title, update.chat.username, update.message,
      update.message.messageId, update.message.text, context.error)
  }

  /** `Bot.get_info(*args)`: a single argument is already the info and is
      passed through, two arguments are an update and a context. */
  function GetInfo(args: Args): Info {
    match args
    case Single(info) => info
    case Raw(update, context) => ExtractInfo(update, context)
  }

  /** Because a single argument passes through, wrappers that each call
      `get_info` can be nested: the inner one sees the info the outer one
      built. */
  lemma GetInfoPassesThrough(args: Args)
    ensures GetInfo(Single(GetInfo(args))) == GetInfo(args)
    ensures args.Single? ==> GetInfo(args) == args.info
  {
  }

  /** Fixed game-bot replies whose wording is not part of this model. */
  datatype Notice =
    | UseJoinButton       // "/start" without a pending invitation
    | JoinedGame          // "/start" redeemed an invitation
    | NeedGroup           // a group-only command outside a group
    | GameRunning         // "/jogar" where a game already exists
    | NotInGame           // "/sair" from someone not in a game
    | LeftGame            // "/sair" succeeded
    | GameCalled          // the animation announcing a new game
    | GameWon             // the animation announcing the winner
    | ReviewPhoto         // the photo sent to the master to judge

  /** What a handler returns. The library call that sends a message is not
      modelled; the reply records what would have been sent. */
  datatype Reply =
    | Nothing                                                        // Python's `None`
    | Text(chatId: int, text: string, replyTo: Option<int>)          // `send_message`
    | Notify(chatId: int, notice: Notice, replyTo: Option<int>)      // a fixed message, photo or animation
    | QueryAnswered                                                  // `query.answer()`

  /** What a wrapper that may skip its callback hands on: a callback that
      did not run gives `None`, and an exception passes through. */
  function ReplyOf(o: Outcome<Option<Reply>>): Outcome<Reply> {
    match o
    case Raised(e) => Raised(e)
    case Returned(None) => Returned(Nothing)
    case Returned(Some(x)) => Returned(x)
  }
}

=== FILE: vilabot.dfy ===
/** `VilaBot` (archive/vilabot/vilabot.py): a bot built on `Bot` whose
    `/start` starts the chat once, and whose other handlers answer only in
    started chats. */
module VilaBot {
  import opened Exceptions
  import opened Dicts
  import opened Telegram
  import opened Store
  import opened Filters
  import opened Bot
  import Proxy
  import Layer

  /** `VilaBot.START_TEXT`. */
  const StartText: string := "Aaauuuuuuuuu!"

  /** `VilaBot.get_answer`: echoes the text as it came. */
  function GetAnswer(text: string): (r: string)
    ensures r == text
  {
    text
  }

  /** The override changes what the bot answers: the default answer of
      `Bot.get_answer` never echoes the text. */
  lemma GetAnswerOverridesDefault(text: string)
    ensures GetAnswer(text) != Bot.GetAnswer(text)
  {
    assert |Bot.GetAnswer(text)| == |text| + 23;
  }

  /** The body of `VilaBot.start`: a chat already started gets no answer;
      otherwise the chat is started and greeted. */
  function StartBody(d: Data, args: Args): Step<Data, Reply> {
    var info := GetInfo(args);
    var s := GetChat(d, info.chatId);
    match s.outcome
    case Raised(e) => Step(s.state, Raised(e))
    case Returned(chat) =>
      if chat.started then Step(s.state, Returned(Nothing))
      else Step(StartChat(s.state, info.chatId), Returned(Text(info.chatId, StartText, None)))
  }

  /** `/start`: `with_info` over the body. */
  function Start(d: Data, args: Args): (r: Step<Data, Reply>)
    ensures var id := GetInfo(args).chatId;
      Chats(d).Returned? && !Proxy.StartedIn(d, id) ==>
        && r.outcome == Returned(Text(id, StartText, None))
        && Chats(r.state).Returned? && Proxy.StartedIn(r.state, id)
        && (forall k :: k != id ==> Get(Chats(r.state).value, k) == Get(Chats(d).value, k))
        && Get(Chats(r.state).value, id).value.cache == CachedIn(Chats(d).value, id)
        && r.state.memory.Keys == d.memory.Keys
        && (Wf(d) ==> Wf(r.state))
        && (Wf(d) ==> forall k | k in d.memory && k != "chats" :: Contents(r.state)[k] == Contents(d)[k])
    ensures Chats(d).Returned? && Proxy.StartedIn(d, GetInfo(args).chatId) ==> r == Step(d, Returned(Nothing))
    ensures Chats(d).Raised? ==> r == Step(d, Raised(Chats(d).error))
  {
    var info := GetInfo(args);
    Layer.WithInfoNests(StartBody, d, args);
    assert GetInfo(Single(info)) == info;
    var s := GetChat(d, info.chatId);
    assert Chats(d).Returned? ==> Chats(s.state).Returned?;
    WithInfo(StartBody)(d, args)
  }

  /** The start-once rule: a second `/start` in the same chat is ignored and
      changes nothing. */
  lemma StartOnce(d: Data, args: Args)
    requires Chats(d).Returned?
    ensures var first := Start(d, args);
      Start(first.state, args) == Step(first.state, Returned(Nothing))
  {
  }

  /** The bodies of the gated handlers. `lorem.paragraph()` is random, so
      the paragraph is a parameter. */
  function LoremBody(paragraph: string): Handler {
    (d, args) => Step(d, Returned(Text(GetInfo(args).chatId, paragraph, None)))
  }

  function EchoBody(d: Data, args: Args): Step<Data, Reply> {
    var info := GetInfo(args);
    Step(d, Returned(Text(info.chatId, GetAnswer(info.text), None)))
  }

  function MentionBody(d: Data, args: Args): Step<Data, Reply> {
    var info := GetInfo(args);
    Step(d, Returned(Text(info.chatId, GetAnswer(info.text), Some(info.messageId))))
  }

  function UnknownBody(d: Data, args: Args): Step<Data, Reply> {
    var info := GetInfo(args);
    Step(d, Returned(Text(info.chatId, UnknownText(info.text), None)))
  }

  /** The four gated handlers: `with_info` over `lock_start` over the body. */
  function Lorem(paragraph: string): Handler { WithInfo(LockStart(LoremBody(paragraph))) }
  function Echo(): Handler { WithInfo(LockStart(EchoBody)) }
  function MentionReply(): Handler { WithInfo(LockStart(MentionBody)) }
  function Unknown(): Handler { WithInfo(LockStart(UnknownBody)) }

  /** Before `/start` none of the gated handlers answers. */
  lemma GatedBeforeStart(d: Data, args: Args, paragraph: string)
    requires Chats(d).Returned? && !Proxy.StartedIn(d, GetInfo(args).chatId)
    ensures Lorem(paragraph)(d, args).outcome == Returned(Nothing)
    ensures Echo()(d, args).outcome == Returned(Nothing)
    ensures MentionReply()(d, args).outcome == Returned(Nothing)
    ensures Unknown()(d, args).outcome == Returned(Nothing)
  {
  }

  /** After `/start` they all answer, and the echo handlers send the text
      back unchanged. */
  lemma AnswersAfterStart(d: Data, args: Args, paragraph: string)
    requires Chats(d).Returned?
    ensures var s := Start(d, args).state;
      var info := GetInfo(args);
      && Lorem(paragraph)(s, args) == Step(s, Returned(Text(info.chatId, paragraph, None)))
      && Echo()(s, args) == Step(s, Returned(Text(info.chatId, info.text, None)))
      && MentionReply()(s, args) == Step(s, Returned(Text(info.chatId, info.text, Some(info.messageId))))
      && Unknown()(s, args) == Step(s, Returned(Text(info.chatId, UnknownText(info.text), None)))
  {
    var s := Start(d, args).state;
    assert Chats(s).Returned?;
  }

  /** The filter tuples of the message handlers. */
  const EchoFilters: seq<Filter> := [Invert(Builtin("command")), Builtin("text")]
  const MentionFilters: seq<Filter> := [Invert(Builtin("command")), Builtin("text"), Builtin("entity:mention")]
  const UnknownFilters: seq<Filter> := [Builtin("command")]

  /** Every message the mention handler accepts, the echo handler accepts
      too, whatever the built-in filters mean. */
  lemma MentionImpliesEcho(builtin: (string, Message) -> bool, m: Message)
    ensures Holds(AndFold(MentionFilters).value, builtin, m) ==> Holds(AndFold(EchoFilters).value, builtin, m)
  {
    AndFoldMeansAll(MentionFilters, builtin, m);
    AndFoldMeansAll(EchoFilters, builtin, m);
    if AllHold(MentionFilters, builtin, m) {
      assert Holds(MentionFilters[0], builtin, m) && Holds(MentionFilters[1], builtin, m);
    }
  }

  /** The class body in declaration order, with the marks its decorators
      leave; `functools.wraps` carries the marks through `with_info` and
      `lock_start`. */
  const VilaAttrs: seq<(string, Marks)> := [
    ("START_TEXT", Unmarked),
    ("get_answer", Unmarked),
    ("start", Command("start", map[], Unmarked)),
    ("lorem", Command("lorem", map[], Unmarked)),
    ("echo", OnMessage(EchoFilters, map[], Unmarked)),
    ("mention", OnMessage(MentionFilters, map[], Unmarked)),
    ("unknown", OnMessage(UnknownFilters, map[], Unmarked)),
    ("error", SetError(Unmarked))
  ]

  /** The command and message tables harvested from `VilaBot`. */
  const VilaCommands: seq<CommandEntry> := [CommandEntry("start", "start", map[]), CommandEntry("lorem", "lorem", map[])]
  const VilaMessages: seq<MessageEntry> := [
    MessageEntry(EchoFilters, "echo", map[]),
    MessageEntry(MentionFilters, "mention", map[]),
    MessageEntry(UnknownFilters, "unknown", map[])
  ]

  /** The harvest of the first `k` attributes, two at a time. */
  lemma VilaPrefix2()
    ensures GetHandlers(VilaAttrs[..2]) == NoHandlers
  {
    GetHandlersSnoc(VilaAttrs, 0);
    GetHandlersSnoc(VilaAttrs, 1);
  }

  lemma VilaPrefix4()
    ensures GetHandlers(VilaAttrs[..4]) == Handlers(["start", "lorem"], VilaCommands, [], None)
  {
    VilaPrefix2();
    GetHandlersSnoc(VilaAttrs, 2);
    GetHandlersSnoc(VilaAttrs, 3);
  }

  lemma VilaPrefix6()
    ensures GetHandlers(VilaAttrs[..6]) == Handlers(["start", "lorem"], VilaCommands, VilaMessages[..2], None)
  {
    VilaPrefix4();
    GetHandlersSnoc(VilaAttrs, 4);
    GetHandlersSnoc(VilaAttrs, 5);
  }

  /** What the metaclass harvests from `VilaBot`: the two commands, the
      three message handlers in declaration order, and `error`. */
  lemma VilaHarvest()
    ensures GetHandlers(VilaAttrs) == Handlers(["start", "lorem"], VilaCommands, VilaMessages, Some("error"))
  {
    VilaPrefix6();
    GetHandlersSnoc(VilaAttrs, 6);
    GetHandlersSnoc(VilaAttrs, 7);
    assert VilaAttrs[..8] == VilaAttrs;
  }

  /** What registration makes of the harvest: each command listed twice
      afterwards, every message handler registered, and the error handler,
      though harvested, never registered. */
  lemma VilaRegistration()
    ensures var h := GetHandlers(VilaAttrs);
      && h.errorHandler == Some("error")
      && AddCommandHandlers(h).1 == ["start", "lorem", "start", "lorem"]
      && AddMessageHandlers([], h.messageHandlers).outcome.Returned?
      && AddErrorHandler(BotErrorHandlers) == None
  {
    VilaHarvest();
    CommandsListedTwice(VilaAttrs);
    assert |VilaMessages| == 3;
    assert |VilaMessages[0].filters| == 2 && |VilaMessages[1].filters| == 3 && |VilaMessages[2].filters| == 1;
    assert forall i :: 0 <= i < |VilaMessages| ==> |VilaMessages[i].filters| > 0;
  }
}
